=== FILE: README.md ===
# Repository auto-deployer: a Dafny model of its decision pipeline

The orchestrator sweeps every repository of a source-host account. For each
one it decides whether to leave it alone, whether it is already deployed and
working somewhere, how much work it needs before it can be deployed (a
template "quick fix" or a run of an external coding agent), and then deploys
it to a hosting provider. When a deployment fails it can hand the error back
to the agent and try again. A JSON ledger (the manifest) records one entry per
repository, so a later run can resume the sweep. At the start of each run a
reset pass makes every unfinished entry eligible again.

This project models that pipeline in Dafny, one module per concern:

- `Records` (`records.dfy`): the repository metadata, the ledger record
  `Project` with its `Status`, the run configuration, and the consistency that
  each status demands of the other fields.
- `Pipeline` (`pipeline.dfy`): the skip rules, the outside world as oracles,
  and `process_repo` as a chain of phase methods that assign the record's
  fields step by step and report what they did in a `Trace`.
- `Liveness` (`liveness.dfy`): the candidate URLs, the probe verdict and the
  first-match search for an existing deployment.
- `Classifier` (`classifier.dfy`): the signals derived from the tree, the
  tech-stack builder and the deploy-type, category and tier decision chains.
- `JsonExtract` (`json_extract.dfy`): the brace-depth scanner and the choice
  of the longest valid candidate.
- `Render` (`render.dfy`): the quick fix, the request body, the client with
  its bounded back-off, and the self-healing retry loop.
- `Ledger` (`ledger.dfy`): the class `Manifest`, whose `projects` map the
  reset pass and the main loop update in place, and the loop's tallies.
- `Strings` and `Wrappers` are helpers: ASCII case mapping, Python-style
  strip, substring tests, and `Option`.

Everything the program learns from outside is a parameter:

- what the URL regular expression finds in a description;
- the answer to each GET;
- the tree's blob paths;
- the clone's error;
- the working copies after the clone, after the completion and after each fix;
- the agent's verdicts;
- the provider's answer to each POST.

The back-off is modelled as the list of wait times the client would sleep.

Two facts about the order and the failure handling of `process_repo`:

- The ledger's Deployed/AlreadyLive short-circuit (`Orchestrator.py:1414-1421`)
  runs before the skip rules (`Orchestrator.py:1432`), and so it does in
  `Pipeline.ProcessRepo`: a cached deployment is returned even for a
  repository a skip rule would now exclude.
- A descriptor whose `services` list is empty, or that does not parse, raises
  out of `build_render_payload` with no handler on the way, so one bad
  descriptor ends the whole sweep. That path is left out (see below).

`extract_json_from_output` has no caller in `Orchestrator.py`. It is modelled
on its own.

## Model

| member | source | states |
|---|---|---|
| Records.NewProject | Orchestrator.py:1423-1429 | a fresh record copies the repository's name, URL, description, language and fork flag, and is Pending with no URL, no skip reason and no error |
| Pipeline.ShouldSkip | Orchestrator.py:1389-1405 | skip exactly when the lower-cased name is on the deny list, or the repository is a fork, archived or of size 0; the first of these that holds gives the reason ("In skip list", "Fork", "Archived", "Empty repo"); a reason is non-empty exactly when the repository is skipped |
| Pipeline.SkipListIgnoresCase | Orchestrator.py:1391-1394 | two repositories whose names agree once lower-cased, and that agree on fork, archived and size, get the same decision |
| Liveness.Dedupe | Orchestrator.py:197 | the result has no repeats and holds exactly the elements of the input |
| Liveness.DedupeKeepsFirstOccurrenceOrder | Orchestrator.py:197 | dropping repeats keeps each element at the place of its first occurrence: kept elements appear in the order of their first occurrences |
| Liveness.DedupeKeepsHead | Orchestrator.py:197 | when the first two inputs differ, they are the first two outputs |
| Liveness.GeneratedUrls | Orchestrator.py:173-195 | the URLs in generation order: the pages URL with and without a slash, the two provider guesses, an http homepage, the description URLs; its properties are those of `Liveness.GeneratedUrlsNonEmpty` and `Liveness.CandidateUrlsSpec` |
| Liveness.CandidateUrls | Orchestrator.py:173-197 | the generated URLs with repeats dropped; `Liveness.CandidateUrlsSpec` and `Liveness.CandidateUrlsNonEmpty` state what it yields |
| Liveness.GeneratedUrlsNonEmpty | Orchestrator.py:180-195 | no generated URL is empty: the fixed ones are built non-empty, and the homepage and description URLs begin with "http" |
| Liveness.CandidateUrlsSpec | Orchestrator.py:173-197 | the candidates have no duplicates and are exactly the generated URLs (pages URL with and without a slash, the two provider guesses, an http homepage, the description URLs); there are at least two; the two pages URLs come first; every candidate is at the place of its first generation |
| Liveness.CandidateUrlsNonEmpty | Orchestrator.py:173-197 | no candidate URL is empty |
| Liveness.IsLive | Orchestrator.py:200-223 | the probe's verdict on one answer: a raised request, a status of 400 or more, a stripped inspected body under 100 characters or an error signal make it not live; `Liveness.LiveResponse` characterises it |
| Liveness.LiveResponse | Orchestrator.py:200-223 | an answer is live exactly when it is a response (not a raised request) with status below 400 whose lower-cased first 2000 characters keep at least 100 characters once stripped and contain none of "404", "not found", "suspended", "there isn't a github pages site", "this page could not be found"; so a live text has at least 100 characters and never mentions "404" |
| Liveness.ErrorSignalsReduce | Orchestrator.py:214-218 | a body carries one of the eight error signals exactly when it carries one of five: "page not found", "site not found" and "404.html" are implied by shorter signals |
| Liveness.FindExistingDeployment | Orchestrator.py:226-236 | candidates are probed in order and the probed URLs are a prefix of the candidates; when a live one is found it is the last URL probed, and every earlier one was not live; when none is live, every candidate was probed and the result is (false, "") |
| Liveness.FoundIsCandidate | Orchestrator.py:226-236 | a URL reported live is one of the candidates |
| Pipeline.FindDeployment | Orchestrator.py:1440 | the URL of a live deployment found for a repository is never empty |
| Classifier.LowerPaths | Orchestrator.py:267 | the looked-up paths are all lower-case, every blob path appears lower-cased, and there are no more of them than blob paths |
| Classifier.DeriveSignals | Orchestrator.py:272-284 | the file signals of a tree; `Classifier.IndexHtmlIsHtml` and `Classifier.CapitalisedAlternativesAreDead` state what can be derived from them |
| Classifier.DeployTypeOf | Orchestrator.py:304-319 | C# sources mean Docker, and only they do; Python exactly when there is no C# and there are Python files with a server entry point, or Python files with no `package.json` and no HTML; static exactly when there is no C#, no Python server, no `package.json` with a server or React, and there is HTML or neither `package.json` nor Python files; Node (which needs a root `package.json`) in every other case |
| Classifier.CategoryOf | Orchestrator.py:321-335 | the category is one of the five names and each is characterised: web-app exactly with React or a `package.json` with a server; api exactly for a server without HTML, or C# code not claimed by the static-site and cli-tool rules; static-site exactly for HTML without `package.json`, or a declared html/css/javascript language with no Python-only or C# evidence; cli-tool exactly for Python files with no HTML, no server and no web app; other exactly when none of these apply |
| Classifier.TierOf | Orchestrator.py:342-355 | the tier is 0, 1 or 2; a tree of at most two files is tier 2 whatever else it holds; tier 0 exactly for more than two files of static HTML (a static deployment with `index.html` or HTML files and no root `package.json`); tier 1 exactly for more than two files that are not static HTML and either have a descriptor, a README and a `package.json`, or have no C# code, no Dockerfile and no `package.json` lacking both a server and React; tier 2 in every other case |
| Classifier.BuildTechStack | Orchestrator.py:286-301 | the list built by appending tags and inserting the language at the front equals the declared language (capitalised), when there is one, followed by the evidence tags in fixed order; a declared language is always at the front |
| Classifier.CapitalizedNotAmongLoweredTags | Orchestrator.py:300 | the "not already represented" test never finds the language, because a capitalised word never equals a lower-cased tag |
| Classifier.Classify | Orchestrator.py:252-371 | the tier is at most 2; the file count is the number of distinct lower-cased paths, at most the number of blob paths; at most two files gives tier 2; tier 0 is static with no root `package.json`; the deploy type, category, tier and tech stack are those the decision chains and the tech-stack builder give for the derived signals, with the language lower-cased; a declared language heads the tech stack; with no language the stack is the evidence tags alone |
| Classifier.IndexHtmlIsHtml | Orchestrator.py:272-278 | a tree with an `index.html` anywhere has HTML files |
| Classifier.TierZeroIff | Orchestrator.py:342-347 | tier 0 holds exactly when the tree has more than two files, some HTML, no root `package.json`, no C# and is not a Python server; the `index.html` rule never decides anything the HTML rule would not |
| Classifier.CapitalisedAlternativesAreDead | Orchestrator.py:275-277 | the "Dockerfile" and "README.md" alternatives never match, so only the lower-case spellings decide those signals |
| Classifier.DeclaredLanguageDuplicatesEvidence | Orchestrator.py:298-301 | a declared language is added even when the evidence names it: C# declared on a tree with C# sources lists "C#" first and last |
| JsonExtract.Scan | Orchestrator.py:524-536 | the scanner's state after a prefix of the text: the open position is -1 or inside the text; `JsonExtract.ScanDepth` shows its depth is the brace depth of the text |
| JsonExtract.Candidates | Orchestrator.py:524-536 | the spans the scan collects, in closing order; `JsonExtract.CandidatesAreExactlyTopLevelBalancedSpans` characterises them |
| JsonExtract.ScanCandidates | Orchestrator.py:524-536 | the depth/start scanner loop collects exactly the spans the character-by-character scan function defines |
| JsonExtract.CandidatesAreTopLevelBalancedSpans | Orchestrator.py:524-536 | every collected candidate is a balanced `{...}` span (starts with `{`, ends with `}`, every proper prefix has more `{` than `}`) and occurs in the text where the braces before it balance |
| JsonExtract.ScanDepth | Orchestrator.py:524-536 | the scanner's depth counter is the number of `{` minus the number of `}` read so far |
| JsonExtract.TopLevelSpanIsCandidate | Orchestrator.py:524-536 | every balanced span that opens where the braces before it balance is collected |
| JsonExtract.CandidatesAreExactlyTopLevelBalancedSpans | Orchestrator.py:524-536 | a text is a candidate exactly when it is a balanced span occurring where the braces before it balance: the scanner misses none and invents none |
| JsonExtract.BalancedTextIsItsOwnCandidate | Orchestrator.py:524-536 | a text that is one balanced span yields exactly itself |
| JsonExtract.StrayCloseHidesSpan | Orchestrator.py:532-536 | an unmatched `}` in front of a balanced span hides it: the depth never returns to zero where the span opens |
| JsonExtract.ExtractJson | Orchestrator.py:510-545 | empty output gives nothing; a fenced block that is valid JSON (stripped) wins; otherwise the result is nothing exactly when no candidate is valid, else the longest valid candidate, the earliest among equally long ones, as trying them longest first with a stable sort would pick |
| Render.QuickFix | Orchestrator.py:374-392 | afterwards there is a README; an existing descriptor is left as it is; a missing one becomes the single static web service publishing the root |
| Render.QuickFixIdempotent | Orchestrator.py:380-390 | running the quick fix twice is running it once |
| Render.QuickFixedRepoDeploysStatic | Orchestrator.py:381-386 | a repository that had no descriptor is deployed after the quick fix as a static site of its root with no build command |
| Render.ServiceName | Orchestrator.py:600 | the service name is "mh-" followed by a prefix of the repository name, the whole name when it has at most 30 characters; it has 3 to 33 characters |
| Render.ServiceNameCollision | Orchestrator.py:600 | two repositories get the same service name exactly when their names agree on the first 30 characters |
| Render.BuildRenderPayload | Orchestrator.py:575-635 | every payload carries the service name, the owner, the repository URL, automatic deploys and the main branch; it is a web service exactly when the first service has type "web" and a runtime that is present and not "static", and then has plan "free", that runtime and the descriptor's build and start commands, defaulting to "npm install" and "npm start"; otherwise it is a static site with the service's build command and publish path, defaulting to "" and "./" |
| Render.AttemptsFrom | Orchestrator.py:661-682 | the client's POST loop from attempt k on: success, another error code, a raised request, or a rate limit that goes on to the next attempt until three are spent; `Render.AttemptsFromUrl` and `Render.DeployToRender` state its results |
| Render.DeployOutcome | Orchestrator.py:638-682 | `deploy_to_render` as a value: no API key, a dry run, or the POST loop on the built payload; `Render.DeployOutcomeUrl` and `Render.DeployToRender` state its results |
| Render.AttemptsFromUrl | Orchestrator.py:661-682 | a successful POST sequence reports the service's own URL and no error |
| Render.DeployOutcomeUrl | Orchestrator.py:638-682 | whatever the configuration, a deployment that reports a URL reports the service's URL and an empty error |
| Render.DeployToRender | Orchestrator.py:638-682 | with no API key, nothing is posted and the error is "No RENDER_API_KEY set"; in a dry run, nothing is posted and the service URL is reported; otherwise 1 to 3 POSTs are made, all but the last rate limited; each rate limit waits 30, 60, 90 s in turn; 200/201 reports the service URL; another code reports "Render API <code>: " and the first 500 characters of the text; a raised request reports its message; three rate limits report "Rate limit exceeded after retries" |
| Render.MentionsRateLimit | Orchestrator.py:700 | the retry loop's rate-limit guard; `Render.RateLimitGuardReduces` reduces it to one test |
| Render.RateLimitGuardReduces | Orchestrator.py:700 | the guard's second test is redundant: it holds exactly when the lower-cased error contains "rate limit" |
| Render.RetriesExhaustedIsRateLimit | Orchestrator.py:682 | the client's message after three rate limits trips the self-healing loop's rate-limit guard |
| Render.DeployAttempt | Orchestrator.py:691 | one call of the client from the retry loop; a URL it reports is the service URL with no error |
| Render.OutcomesAt | Orchestrator.py:690-691 | the result of deployment attempt k is the client's outcome on the working copy left after attempt k-1 and on that attempt's answers |
| Render.DeployWithRetry | Orchestrator.py:685-734 | with `max_retries` below 1, nothing is tried; otherwise 1 to `max_retries` attempts are made and fewer than `max_retries` fixes are requested; a returned URL is the last attempt's and the service URL, and every earlier attempt failed; each fix request is a failed attempt's error, which is non-empty and does not mention a rate limit; every attempt after the first follows a fix the agent reported successful; a final fix request means the agent failed; stopping early without a fix request means the error was empty or a rate limit |
| Pipeline.CompleteTiered | Orchestrator.py:548-568 | tier 0 (or below) succeeds without calling the agent; tier 1 calls it once with 15 turns, higher tiers with 30; the agent's verdict is the result |
| Pipeline.FallbacksAreDead | Orchestrator.py:1461-1462 | the stack and category fallbacks never apply: an empty stack means no declared language, and a category is never empty |
| Pipeline.Described | Orchestrator.py:1450-1451 | a record without a description takes the repository's, or its name when that is empty as well; nothing else changes |
| Pipeline.LiveRecord | Orchestrator.py:1441-1454 | a repository found live is AlreadyLive with the live URL and the classification's stack and category, keeps its identity and is consistent |
| Pipeline.ClassifiedRecord | Orchestrator.py:1458-1464 | a repository found not live is still Pending with no URL, error or skip reason, carrying the classification's stack and category |
| Pipeline.DeployPhase | Orchestrator.py:1506-1519 | the record becomes Completed, then 1 or 2 attempts run with at most one fix; it ends Deployed exactly when the last attempt reported a URL, and then with the service URL; a record left Completed has no URL and every attempt failed; identity, stack, category, error and skip reason are untouched; the agent is only ever handed the error of the attempt it follows, never an empty one and never a rate limit |
| Pipeline.CompleteAndDeploy | Orchestrator.py:1469-1521 | at most one file is Skipped as "Empty or README-only repo"; a dry run stops at Completed with no clone; tier 0 never calls the agent; tier 1 and 2 call it with 15 or 30 turns; Failed carries "Completion failed" or "Clone failed: " and the message; the result is consistent; a Completed record has no URL; a deployment follows a clone and as many pushes as attempts; a Deployed record has the URL the last attempt reported; when every attempt fails the record stays Completed; the agent is only ever handed the error of the attempt it follows, never an empty one and never a rate limit |
| Pipeline.CloneCompleteDeploy | Orchestrator.py:1483-1521 | the clone always happens; a failed clone is Failed with "Clone failed: " and the message; tier 0 never calls the agent, tiers 1 and 2 call it with 15 or 30 turns and its failure is Failed with "Completion failed"; the result is consistent; a deployment gets as many pushes as attempts; a Deployed record has the service URL the last attempt reported; when every attempt fails the record stays Completed with no URL; the agent is only ever handed the error of the attempt it follows, never an empty one and never a rate limit |
| Pipeline.ProbeAndRun | Orchestrator.py:1439-1521 | the probed URLs are those of the search; the record is AlreadyLive exactly when a live URL was found, and then it carries that URL and nothing is cloned, completed or deployed; the stack and category are the classification's; the result is consistent; a Failed record carries "Completion failed" or "Clone failed: " and the message; for a repository not found live, a tree of at most one file is Skipped as "Empty or README-only repo", a dry run stops at Completed with nothing cloned or deployed, tier 0 never calls the agent and tiers 1 and 2 call it with 15 or 30 turns; the agent is only ever handed the error of the attempt it follows, never an empty one and never a rate limit |
| Pipeline.ProcessRepo | Orchestrator.py:1408-1521 | with SKIP_EXISTING, a cached Deployed or AlreadyLive record comes back unchanged and nothing is done; otherwise the record keeps its identity and is consistent: AlreadyLive or Deployed has a URL, Skipped a reason, Failed an error; a skipped repository is never probed and has its rule's reason; otherwise AlreadyLive holds exactly when the probe found a live URL, and for a repository not found live a tree of at most one file is Skipped as "Empty or README-only repo", a dry run stops at Completed with nothing cloned or deployed, tier 0 never calls the agent and tiers 1 and 2 call it with 15 or 30 turns; a Failed record carries "Completion failed" or "Clone failed: " and the message; at most 2 attempts and 1 fix; Deployed carries the service URL; a failed deployment leaves Completed; the agent is only ever handed the error of the attempt it follows, never an empty one and never a rate limit |
| Ledger.Reset | Orchestrator.py:1528-1535 | a failed, pending, skipped, analysing or completed record becomes Pending with no error and no skip reason, all else kept; any other record is unchanged |
| Ledger.ResetAll | Orchestrator.py:1524-1537 | the reset pass keeps the set of names |
| Ledger.ResetAllOutcome | Orchestrator.py:1524-1537 | after the reset pass no record is failed, skipped, analysing or completed; deployed, already-live and unrecognised records are as they were; reset records have no error and no skip reason |
| Ledger.ResetAllIdempotent | Orchestrator.py:1529-1535 | resetting twice is resetting once |
| Ledger.Manifest.Empty | Orchestrator.py:112-116 | a ledger with no file yet is empty |
| Ledger.Manifest.ResetEntry | Orchestrator.py:1528-1535 | one entry of the reset loop: only that record changes, to its reset form, and the result says whether it was resettable |
| Ledger.Manifest.ResetForRetry | Orchestrator.py:1524-1537 | the ledger in place becomes the reset of the old ledger, and the count is the number of records whose status was resettable |
| Ledger.Bump | Orchestrator.py:1576-1585 | one more record adds one to the processed counter and one to the outcome counters exactly when its status is deployed, already-live, skipped or failed |
| Ledger.Count | Orchestrator.py:1559-1585 | the processed counter is the number of records |
| Ledger.BumpCounter | Orchestrator.py:1576-1583 | one more record raises the counter of its own status by one and leaves the other outcome counters alone |
| Ledger.CountPerStatus | Orchestrator.py:1559-1585 | after the loop, the deployed, already-live, skipped and failed counters are each the number of records with that status |
| Ledger.CountBound | Orchestrator.py:1576-1585 | the four outcome counters plus the number of records in any other status (Completed, mostly) add up to the processed counter |
| Ledger.Written | Orchestrator.py:1571 | the ledger after the loop's records are written back in order under their names; `Ledger.WrittenKeys` and the lemmas below state its properties |
| Ledger.WrittenKeys | Orchestrator.py:1571 | writing the records back leaves the old names plus the records' names |
| Ledger.WrittenKeepsNames | Orchestrator.py:1571 | writing records back removes no name |
| Ledger.WrittenKeepsKeys | Orchestrator.py:1565-1571 | in a ledger keyed by record names, the loop keeps it so, and the record for repository i carries that repository's name |
| Ledger.WrittenKeepsSticky | Orchestrator.py:1414-1421 | with SKIP_EXISTING, a Deployed or AlreadyLive record of the ledger is never replaced by the loop |
| Ledger.WrittenKeepsConsistent | Orchestrator.py:1565-1571 | a ledger whose records are all consistent stays so |
| Ledger.Manifest.ProcessOne | Orchestrator.py:1570-1574 | one repository is processed against the ledger as it stands and its record is written under the record's name |
| Ledger.Manifest.Sweep | Orchestrator.py:1565-1585 | one record per repository, written back in order under its name, with the tally counting them; no name is lost; a ledger keyed by names stays so; with SKIP_EXISTING, deployed and already-live records survive; consistency is preserved |
| Ledger.Manifest.Run | Orchestrator.py:1548-1585 | the reset count is the number of resettable records; the ledger becomes the reset ledger with every processed record written back; its names are the old ones plus the processed ones; with SKIP_EXISTING, deployed and already-live records survive the whole run |

## Left out

- The network, the coding agent's subprocess, git and the file system are not executed. Their answers are the `World` oracles and the wait list.
- `fetch_all_repos`, and the tree fetch with its main-to-master fallback: the repository list and the set of blob paths are inputs. A failed fetch is the empty set.
- `load_manifest`/`save_manifest`: the JSON round trip, the file and the save after every repository are not modelled. The `last_run` timestamp is the parameter `now`, like `completed_at`.
- Records.Status: the mapping between ledger status strings and `Status` is not modelled. Any string outside the enum is `Unrecognised`.
- Liveness.GeneratedUrls: the regular expression's matches in the description are an input. The model keeps only their guaranteed "http" prefix.
- JsonExtract.ExtractJson: JSON validity is an abstract predicate, and the result is the accepted text, not the parsed object. The fenced block found by the regular expression is an input. One consequence: a fenced block holding the JSON literal `null` makes the code return `None`, the same value as "nothing found", while the model returns that text.
- Render.BuildRenderPayload: a descriptor key that is present with a null value is treated like a missing key, so the default applies. The code would pass the null through.
- A descriptor whose `services` list is empty, or that does not parse, makes the code raise with no handler. The model has no such descriptor.
- Strings.Lower, Strings.Capitalize: ASCII case mapping only. Python's Unicode case mapping is not modelled.
- Render.QuickFix: the README text and the commit (run through a shell) are not modelled, only which files exist afterwards.
- `run_claude_code`, and the prompt texts of the tiers and of the fix: the agent's verdict and the working copy it leaves are oracles.
- `push_changes`: modelled only as the number of pushes in the trace. Push failures are logged by the code and change nothing.
- `clone_repo`: modelled as an optional error message per repository.
- The probe oracle `World.probe` is one function of the URL for the whole run, so the same URL gives the same answer for every repository, while the real network may answer differently at different times. No proved property depends on this.
- Ledger.Manifest.ResetForRetry: the loop takes names in an arbitrary order rather than dictionary order. Its result does not depend on the order.
- The portfolio generation and deployment, the GIF capture phase, the final summary log and `generate_portfolio.py` are not part of this model.
- Logging, the configuration loaded from the environment, and the timeouts of requests and of the agent: the configuration is the `Config` parameter.

=== FILE: classifier.dfy ===
/**
 * The classifier: from a repository's declared language and the paths of
 * its file tree to an effort tier, a deployment shape, a category and a
 * tech stack. The tree fetch itself is not modelled; `blobPaths` is the set
 * of blob paths it returned (empty when the fetch failed).
 */
module Classifier {
  import opened Strings

  /** The tree's paths lower-cased, as the classifier looks them up. */
  function LowerPaths(blobPaths: set<string>): (files: set<string>)
    ensures forall f :: f in files ==> IsLowerString(f)
    ensures forall p :: p in blobPaths ==> Lower(p) in files
    ensures |files| <= |blobPaths|
  {
    var files := set p | p in blobPaths :: Lower(p);
    forall f | f in files ensures IsLowerString(f) {
      var p :| p in blobPaths && f == Lower(p);
      LowerIsLower(p);
    }
    LowerPathsSize(blobPaths);
    files
  }

  lemma {:induction false} LowerPathsSize(blobPaths: set<string>)
    ensures |set p | p in blobPaths :: Lower(p)| <= |blobPaths|
  {
    if blobPaths != {} {
      var p :| p in blobPaths;
      var rest := blobPaths - {p};
      LowerPathsSize(rest);
      assert (set q | q in blobPaths :: Lower(q)) == (set q | q in rest :: Lower(q)) + {Lower(p)};
    }
  }

  /** The file evidence derived from the lower-cased tree. */
  datatype Signals = Signals(
    hasIndexHtml: bool,
    hasPackageJson: bool,
    hasRequirements: bool,
    hasDockerfile: bool,
    hasRenderYaml: bool,
    hasReadme: bool,
    hasHtmlFiles: bool,
    hasCssFiles: bool,
    hasJsFiles: bool,
    hasPyFiles: bool,
    hasCsFiles: bool,
    hasReact: bool,
    hasServer: bool,
    fileCount: nat)

  predicate AnyEndsWith(files: set<string>, suffix: string)
  {
    exists f | f in files :: EndsWith(f, suffix)
  }

  const ServerEntrypoints: seq<string> :=
    ["server.js", "app.js", "index.js", "server.py", "app.py", "main.py"]

  /**
   * The signals: `index.html` and the extension tests match anywhere in the
   * tree, the named manifest files only at the root. The capitalised
   * spellings `Dockerfile` and `README.md` are looked up too.
   */
  function DeriveSignals(files: set<string>): Signals
  {
    Signals(
      hasIndexHtml := AnyEndsWith(files, "index.html"),
      hasPackageJson := "package.json" in files,
      hasRequirements := "requirements.txt" in files,
      hasDockerfile := "dockerfile" in files || "Dockerfile" in files,
      hasRenderYaml := "render.yaml" in files,
      hasReadme := "readme.md" in files || "README.md" in files,
      hasHtmlFiles := AnyEndsWith(files, ".html"),
      hasCssFiles := AnyEndsWith(files, ".css"),
      hasJsFiles := exists f | f in files ::
        EndsWith(f, ".js") || EndsWith(f, ".jsx") || EndsWith(f, ".ts") || EndsWith(f, ".tsx"),
      hasPyFiles := AnyEndsWith(files, ".py"),
      hasCsFiles := exists f | f in files :: EndsWith(f, ".cs") || EndsWith(f, ".csproj"),
      hasReact := (exists f | f in files :: Contains(f, "react"))
                  || (exists f | f in files :: EndsWith(f, ".jsx") || EndsWith(f, ".tsx")),
      hasServer := exists k | 0 <= k < |ServerEntrypoints| :: ServerEntrypoints[k] in files,
      fileCount := |files|)
  }

  datatype DeployType = Docker | Python | Node | Static

  /**
   * The deploy-type chain; the first matching rule decides. C# code always
   * means Docker; Python means Python files with a server entry point, or
   * Python files alone (no `package.json`, no HTML); a static site is what is
   * left when no server or React app is detected and there is HTML, or
   * neither `package.json` nor Python files; everything else with a root
   * `package.json` is Node.
   */
  function DeployTypeOf(sig: Signals): (t: DeployType)
    ensures t == Docker <==> sig.hasCsFiles
    ensures t == Node ==> sig.hasPackageJson
    ensures t == Python ==> sig.hasPyFiles
    ensures t == Python <==>
              && !sig.hasCsFiles && sig.hasPyFiles
              && (sig.hasServer || (!sig.hasPackageJson && !sig.hasHtmlFiles && !sig.hasIndexHtml))
    ensures t == Static <==>
              && !sig.hasCsFiles && !(sig.hasPyFiles && sig.hasServer)
              && !(sig.hasPackageJson && (sig.hasServer || sig.hasReact))
              && (sig.hasHtmlFiles || sig.hasIndexHtml || (!sig.hasPackageJson && !sig.hasPyFiles))
  {
    if sig.hasCsFiles then Docker
    else if sig.hasPyFiles && sig.hasServer then Python
    else if sig.hasPackageJson && sig.hasServer then Node
    else if sig.hasPackageJson && sig.hasReact then Node
    else if sig.hasHtmlFiles || sig.hasIndexHtml then Static
    else if sig.hasPackageJson then Node
    else if sig.hasPyFiles then Python
    else Static
  }

  const Categories: set<string> := {"web-app", "api", "static-site", "cli-tool", "other"}

  /** The declared languages that make an otherwise unplaced repository a static site. */
  const WebLanguages: seq<string> := ["html", "css", "javascript"]

  /** React, or a root `package.json` with a server entry point: an interactive web app. */
  predicate IsWebApp(sig: Signals)
  {
    sig.hasReact || (sig.hasPackageJson && sig.hasServer)
  }

  /**
   * The category chain; `language` is the declared language lower-cased.
   * The first matching rule decides: a web app; a server without HTML is an
   * API; HTML without `package.json` is a static site; Python without HTML
   * or a server is a command-line tool; C# code otherwise is an API; a
   * declared web language otherwise is a static site; anything else is
   * "other".
   */
  function CategoryOf(sig: Signals, language: string): (category: string)
    ensures category in Categories
    ensures category == "web-app" <==> IsWebApp(sig)
    ensures category == "api" <==>
              && !IsWebApp(sig)
              && ((sig.hasServer && !sig.hasHtmlFiles)
                  || (sig.hasCsFiles && !(sig.hasHtmlFiles && !sig.hasPackageJson)
                      && !(sig.hasPyFiles && !sig.hasHtmlFiles)))
    ensures category == "static-site" <==>
              && !IsWebApp(sig) && !(sig.hasServer && !sig.hasHtmlFiles)
              && ((sig.hasHtmlFiles && !sig.hasPackageJson)
                  || (!(sig.hasPyFiles && !sig.hasHtmlFiles) && !sig.hasCsFiles && language in WebLanguages))
    ensures category == "cli-tool" <==>
              !IsWebApp(sig) && !sig.hasServer && sig.hasPyFiles && !sig.hasHtmlFiles
    ensures category == "other" <==>
              && !IsWebApp(sig) && !sig.hasServer && !sig.hasCsFiles
              && (sig.hasHtmlFiles ==> sig.hasPackageJson) && (sig.hasPyFiles ==> sig.hasHtmlFiles)
              && language !in WebLanguages
  {
    if sig.hasReact || (sig.hasPackageJson && sig.hasServer) then "web-app"
    else if sig.hasServer && !sig.hasHtmlFiles then "api"
    else if sig.hasHtmlFiles && !sig.hasPackageJson then "static-site"
    else if sig.hasPyFiles && !sig.hasHtmlFiles then "cli-tool"
    else if sig.hasCsFiles then "api"
    else if language in WebLanguages then "static-site"
    else "other"
  }

  /** A static deployment of HTML with no root `package.json`: the trees that need no agent. */
  predicate StaticHtml(sig: Signals, deployType: DeployType)
  {
    deployType == Static && (sig.hasIndexHtml || sig.hasHtmlFiles) && !sig.hasPackageJson
  }

  /**
   * The tier chain: 0 needs no agent, 1 a light polish, 2 a full
   * completion. A near-empty tree is tier 2 whatever else it holds; static
   * HTML is tier 0; a tree with a descriptor, a README and a `package.json`
   * is tier 1; C# code, a Dockerfile or a `package.json` with neither a
   * server nor React is tier 2; anything else is tier 1.
   */
  function TierOf(sig: Signals, deployType: DeployType): (tier: nat)
    ensures tier <= 2
    ensures sig.fileCount <= 2 ==> tier == 2
    ensures tier == 0 ==> deployType == Static && !sig.hasPackageJson
    ensures tier == 0 <==> sig.fileCount > 2 && StaticHtml(sig, deployType)
    ensures tier == 1 <==>
              && sig.fileCount > 2 && !StaticHtml(sig, deployType)
              && ((sig.hasRenderYaml && sig.hasReadme && sig.hasPackageJson)
                  || (!sig.hasCsFiles && !sig.hasDockerfile
                      && !(sig.hasPackageJson && !sig.hasServer && !sig.hasReact)))
  {
    if sig.fileCount <= 2 then 2
    else if deployType == Static && sig.hasIndexHtml && !sig.hasPackageJson then 0
    else if deployType == Static && sig.hasHtmlFiles && !sig.hasPackageJson then 0
    else if sig.hasRenderYaml && sig.hasReadme && sig.hasPackageJson then 1
    else if sig.hasCsFiles || sig.hasDockerfile then 2
    else if sig.hasPackageJson && !sig.hasServer && !sig.hasReact then 2
    else 1
  }

  /** The tag as a one-element list when its evidence is present, else nothing. */
  function Tag(present: bool, tag: string): seq<string>
  {
    if present then [tag] else []
  }

  /** The tags the file evidence contributes, in their fixed order. */
  function EvidenceTags(sig: Signals): seq<string>
  {
    Tag(sig.hasHtmlFiles, "HTML") + Tag(sig.hasCssFiles, "CSS") + Tag(sig.hasJsFiles, "JavaScript")
    + Tag(sig.hasReact, "React") + Tag(sig.hasPyFiles, "Python") + Tag(sig.hasCsFiles, "C#")
  }

  /**
   * The tech stack the classifier reports: the declared language, when there
   * is one, capitalised and in front, then the evidence tags. (`language` is
   * the declared language lower-cased.)
   */
  function TechStack(sig: Signals, language: string): seq<string>
  {
    (if language != "" then [Capitalize(language)] else []) + EvidenceTags(sig)
  }

  function LowerAll(tags: seq<string>): (r: seq<string>)
    ensures |r| == |tags| && forall i :: 0 <= i < |tags| ==> r[i] == Lower(tags[i])
  {
    seq(|tags|, i requires 0 <= i < |tags| => Lower(tags[i]))
  }

  const AllTags: seq<string> := ["HTML", "CSS", "JavaScript", "React", "Python", "C#"]

  lemma EvidenceTagsAreKnown(sig: Signals)
    ensures forall t :: t in EvidenceTags(sig) ==> t in AllTags
  {
  }

  lemma KnownTagsStartWithLetter(t: string)
    requires t in AllTags
    ensures |t| > 0 && (IsUpperAscii(t[0]) || IsLowerAscii(t[0]))
  {
  }

  /**
   * A capitalised word is never among the lower-cased tags: its first
   * character is not a lower-case letter, and every lower-cased tag starts
   * with one.
   */
  lemma {:induction false} CapitalizedNotAmongLoweredTags(tags: seq<string>, language: string)
    requires language != ""
    requires forall t :: t in tags ==> t in AllTags
    ensures Capitalize(language) !in LowerAll(tags)
  {
    forall i | 0 <= i < |tags|
      ensures LowerAll(tags)[i] != Capitalize(language)
    {
      KnownTagsStartWithLetter(tags[i]);
      assert IsLowerAscii(LowerAll(tags)[i][0]);
    }
  }

  /**
   * The tech-stack builder as written: append a tag per piece of evidence,
   * then insert the capitalised language in front unless it is among the
   * lower-cased tags. Since that test never finds it, the result is the
   * declared language followed by the evidence tags.
   */
  method BuildTechStack(sig: Signals, language: string) returns (stack: seq<string>)
    ensures stack == TechStack(sig, language)
    ensures language != "" ==> stack[0] == Capitalize(language)
  {
    stack := Tag(sig.hasHtmlFiles, "HTML");
    stack := stack + Tag(sig.hasCssFiles, "CSS");
    stack := stack + Tag(sig.hasJsFiles, "JavaScript");
    stack := stack + Tag(sig.hasReact, "React");
    stack := stack + Tag(sig.hasPyFiles, "Python");
    stack := stack + Tag(sig.hasCsFiles, "C#");
    assert stack == EvidenceTags(sig);
    if language != "" {
      EvidenceTagsAreKnown(sig);
      CapitalizedNotAmongLoweredTags(stack, language);
      if Capitalize(language) !in LowerAll(stack) {
        stack := [Capitalize(language)] + stack;
      }
    }
  }

  /** The classifier's answer for one repository. */
  datatype Classification = Classification(
    tier: nat,
    deployType: DeployType,
    category: string,
    techStack: seq<string>,
    hasIndexHtml: bool,
    hasPackageJson: bool,
    hasReadme: bool,
    hasRenderYaml: bool,
    hasServer: bool,
    fileCount: nat)

  /**
   * `classify_repo_from_api` after the tree fetch. The tier is 0, 1 or 2; a
   * tree of at most two files is tier 2; tier 0 is a static deployment
   * without a root `package.json`; a declared language always heads the
   * tech stack; the category is one of the five names.
   */
  function Classify(language: string, blobPaths: set<string>): (c: Classification)
    ensures c.tier <= 2
    ensures c.fileCount == |LowerPaths(blobPaths)| <= |blobPaths|
    ensures c.fileCount <= 2 ==> c.tier == 2
    ensures c.tier == 0 ==> c.deployType == Static && !c.hasPackageJson
    ensures c.category in Categories
    ensures var sig := DeriveSignals(LowerPaths(blobPaths));
            && c.deployType == DeployTypeOf(sig) && c.category == CategoryOf(sig, Lower(language))
            && c.tier == TierOf(sig, DeployTypeOf(sig)) && c.techStack == TechStack(sig, Lower(language))
    ensures language != "" ==> c.techStack != [] && c.techStack[0] == Capitalize(Lower(language))
    ensures language == "" ==> c.techStack == EvidenceTags(DeriveSignals(LowerPaths(blobPaths)))
  {
    var lang := Lower(language);
    var sig := DeriveSignals(LowerPaths(blobPaths));
    var deployType := DeployTypeOf(sig);
    Classification(
      tier := TierOf(sig, deployType),
      deployType := deployType,
      category := CategoryOf(sig, lang),
      techStack := TechStack(sig, lang),
      hasIndexHtml := sig.hasIndexHtml,
      hasPackageJson := sig.hasPackageJson,
      hasReadme := sig.hasReadme,
      hasRenderYaml := sig.hasRenderYaml,
      hasServer := sig.hasServer,
      fileCount := sig.fileCount)
  }

  /** Every path ending in `index.html` ends in `.html`. */
  lemma IndexHtmlIsHtml(files: set<string>)
    ensures DeriveSignals(files).hasIndexHtml ==> DeriveSignals(files).hasHtmlFiles
  {
    if DeriveSignals(files).hasIndexHtml {
      var f :| f in files && EndsWith(f, "index.html");
      assert f[|f| - 5..] == f[|f| - 10..][5..];
      assert EndsWith(f, ".html");
    }
  }

  /**
   * Tier 0 in terms of the evidence alone: more than two files, some HTML,
   * no root `package.json`, no C# and not a Python server. (The `index.html`
   * rule never decides anything the `.html` rule would not.)
   */
  lemma {:induction false} TierZeroIff(language: string, blobPaths: set<string>)
    ensures var sig := DeriveSignals(LowerPaths(blobPaths));
            Classify(language, blobPaths).tier == 0 <==>
              sig.fileCount > 2 && sig.hasHtmlFiles && !sig.hasPackageJson
              && !sig.hasCsFiles && !(sig.hasPyFiles && sig.hasServer)
  {
    IndexHtmlIsHtml(LowerPaths(blobPaths));
  }

  /**
   * The capitalised alternatives `Dockerfile` and `README.md` never match,
   * because every looked-up path is lower-cased: only the lower-case
   * spellings count.
   */
  lemma {:induction false} CapitalisedAlternativesAreDead(blobPaths: set<string>)
    ensures var files := LowerPaths(blobPaths);
            && "Dockerfile" !in files && "README.md" !in files
            && DeriveSignals(files).hasDockerfile == ("dockerfile" in files)
            && DeriveSignals(files).hasReadme == ("readme.md" in files)
  {
    var files := LowerPaths(blobPaths);
    assert IsUpperAscii("Dockerfile"[0]);
    assert IsUpperAscii("README.md"[0]);
  }

  /**
   * A declared language is added even when the evidence already names it:
   * C# declared on a tree with C# sources lists "C#" twice.
   */
  lemma DeclaredLanguageDuplicatesEvidence(sig: Signals)
    requires sig.hasCsFiles
    ensures var stack := TechStack(sig, Lower("C#"));
            stack[0] == "C#" && stack[|stack| - 1] == "C#" && |stack| >= 2
  {
    assert Lower("C#") == "c#";
    assert Capitalize("c#") == "C#";
  }
}

=== FILE: json_extract.dfy ===
/**
 * Extraction of a JSON object from the agent's free-text output. JSON
 * validity (`json.loads` succeeding) is the abstract predicate `isJson`, and
 * the fenced-block regular expression is represented by the text it
 * captures (`fence`), or `None` when it does not match.
 */
module JsonExtract {
  import opened Wrappers
  import opened Strings

  function Delta(c: char): int
  {
    if c == '{' then 1 else if c == '}' then -1 else 0
  }

  /** Opening minus closing braces in `s`. */
  function Depth(s: string): int
  {
    if s == [] then 0 else Depth(s[..|s| - 1]) + Delta(s[|s| - 1])
  }

  lemma {:induction false} DepthAppend(a: string, b: string)
    ensures Depth(a + b) == Depth(a) + Depth(b)
  {
    if b != [] {
      assert (a + b)[..|a + b| - 1] == a + b[..|b| - 1];
      DepthAppend(a, b[..|b| - 1]);
    } else {
      assert a + b == a;
    }
  }

  lemma DepthSplit(s: string, i: nat, j: nat)
    requires i <= j <= |s|
    ensures Depth(s[..j]) == Depth(s[..i]) + Depth(s[i..j])
  {
    assert s[..j] == s[..i] + s[i..j];
    DepthAppend(s[..i], s[i..j]);
  }

  /**
   * A balanced brace span: it opens with `{`, closes with `}`, every proper
   * non-empty prefix has more `{` than `}`, and the whole has as many of each.
   */
  ghost predicate Balanced(c: string)
  {
    && |c| >= 2 && c[0] == '{' && c[|c| - 1] == '}'
    && Depth(c) == 0
    && forall k :: 1 <= k < |c| ==> Depth(c[..k]) >= 1
  }

  /** `c` occurs in `s` at a position where the braces before it are balanced. */
  ghost predicate TopLevelSpan(s: string, c: string)
  {
    exists p :: 0 <= p <= |s| - |c| && s[p..p + |c|] == c && Depth(s[..p]) == 0
  }

  /** The scanner's variables: brace depth, start of the open span (or -1), spans found. */
  datatype ScanState = ScanState(depth: int, start: int, candidates: seq<string>)

  /** The scanner's state after reading `s`, one character at a time from the left. */
  function Scan(s: string): (st: ScanState)
    ensures -1 <= st.start < |s|
  {
    if s == [] then ScanState(0, -1, [])
    else
      var prev := Scan(s[..|s| - 1]);
      var i := |s| - 1;
      if s[i] == '{' then
        ScanState(prev.depth + 1, if prev.depth == 0 then i else prev.start, prev.candidates)
      else if s[i] == '}' then
        if prev.depth - 1 == 0 && prev.start >= 0 then
          ScanState(0, -1, prev.candidates + [s[prev.start..]])
        else
          ScanState(prev.depth - 1, prev.start, prev.candidates)
      else prev
  }

  /** The `{...}` spans the scanner collects, in the order they close. */
  function Candidates(s: string): seq<string>
  {
    Scan(s).candidates
  }

  /** The brace-depth scanner as written, over the output text. */
  method ScanCandidates(output: string) returns (candidates: seq<string>)
    ensures candidates == Candidates(output)
  {
    var depth, start := 0, -1;
    candidates := [];
    for i := 0 to |output|
      invariant ScanState(depth, start, candidates) == Scan(output[..i])
    {
      assert output[..i + 1][..i] == output[..i];
      var ch := output[i];
      if ch == '{' {
        if depth == 0 {
          start := i;
        }
        depth := depth + 1;
      } else if ch == '}' {
        depth := depth - 1;
        if depth == 0 && start >= 0 {
          assert output[..i + 1][start..] == output[start..i + 1];
          candidates := candidates + [output[start..i + 1]];
          start := -1;
        }
      }
    }
    assert output[..|output|] == output;
  }

  ghost predicate ScanInvariant(s: string, st: ScanState)
  {
    && st.depth == Depth(s)
    && -1 <= st.start < |s|
    && (st.start >= 0 ==>
          && s[st.start] == '{' && Depth(s[..st.start]) == 0
          && forall k :: st.start < k <= |s| ==> Depth(s[..k]) >= 1)
    && (st.start < 0 ==> Depth(s) <= 0)
    && forall c :: c in st.candidates ==> Balanced(c) && TopLevelSpan(s, c)
  }

  /** A span that opened at depth zero and just closed back to zero is balanced and top-level. */
  lemma ClosedSpan(s: string, start: nat)
    requires start < |s| - 1 && s[start] == '{' && s[|s| - 1] == '}'
    requires Depth(s[..start]) == 0 && Depth(s) == 0
    requires forall k :: start < k < |s| ==> Depth(s[..k]) >= 1
    ensures Balanced(s[start..]) && TopLevelSpan(s, s[start..])
  {
    var c := s[start..];
    DepthSplit(s, start, |s|);
    assert s[start..|s|] == c && s[..|s|] == s;
    SpanPrefixesOpen(s, start);
    assert s[start..start + |c|] == c;
  }

  lemma SpanPrefixesOpen(s: string, start: nat)
    requires start < |s| && Depth(s[..start]) == 0
    requires forall k :: start < k < |s| ==> Depth(s[..k]) >= 1
    ensures forall k :: 1 <= k < |s| - start ==> Depth(s[start..][..k]) >= 1
  {
    var c := s[start..];
    forall k | 1 <= k < |c|
      ensures Depth(c[..k]) >= 1
    {
      DepthSplit(s, start, start + k);
      assert c[..k] == s[start..start + k];
    }
  }

  lemma SpansSurviveAppend(p: string, ch: char, candidates: seq<string>)
    requires forall c :: c in candidates ==> TopLevelSpan(p, c)
    ensures forall c :: c in candidates ==> TopLevelSpan(p + [ch], c)
  {
    var s := p + [ch];
    forall c | c in candidates
      ensures TopLevelSpan(s, c)
    {
      var q :| 0 <= q <= |p| - |c| && p[q..q + |c|] == c && Depth(p[..q]) == 0;
      assert s[q..q + |c|] == c && s[..q] == p[..q];
    }
  }

  lemma PrefixDepthsExtend(p: string, ch: char, start: nat)
    requires forall k :: start < k <= |p| ==> Depth(p[..k]) >= 1
    requires Depth(p + [ch]) >= 1
    ensures forall k :: start < k <= |p| + 1 ==> Depth((p + [ch])[..k]) >= 1
  {
    var s := p + [ch];
    forall k | start < k <= |p| + 1
      ensures Depth(s[..k]) >= 1
    {
      if k <= |p| {
        assert s[..k] == p[..k];
      } else {
        assert s[..k] == s;
      }
    }
  }

  lemma PrefixesOfAppend(p: string, ch: char, k: nat)
    requires k <= |p|
    ensures (p + [ch])[..k] == p[..k]
  {
  }

  lemma OpenKeepsInvariant(p: string)
    requires ScanInvariant(p, Scan(p))
    ensures ScanInvariant(p + ['{'], Scan(p + ['{']))
  {
    var s := p + ['{'];
    var prev := Scan(p);
    assert s[..|s| - 1] == p;
    assert Depth(s) == Depth(p) + 1;
    var st := ScanState(prev.depth + 1, if prev.depth == 0 then |p| else prev.start, prev.candidates);
    assert Scan(s) == st;
    SpansSurviveAppend(p, '{', prev.candidates);
    if st.start >= 0 {
      PrefixesOfAppend(p, '{', st.start);
      PrefixDepthsExtend(p, '{', st.start);
    }
  }

  lemma CloseKeepsInvariant(p: string)
    requires ScanInvariant(p, Scan(p))
    ensures ScanInvariant(p + ['}'], Scan(p + ['}']))
  {
    var s := p + ['}'];
    var prev := Scan(p);
    assert s[..|s| - 1] == p;
    assert Depth(s) == Depth(p) - 1;
    SpansSurviveAppend(p, '}', prev.candidates);
    if prev.depth - 1 == 0 && prev.start >= 0 {
      assert Scan(s) == ScanState(0, -1, prev.candidates + [s[prev.start..]]);
      PrefixesOfAppend(p, '}', prev.start);
      forall k | prev.start < k < |s|
        ensures Depth(s[..k]) >= 1
      {
        PrefixesOfAppend(p, '}', k);
      }
      ClosedSpan(s, prev.start);
    } else {
      assert Scan(s) == ScanState(prev.depth - 1, prev.start, prev.candidates);
      if prev.start >= 0 {
        PrefixesOfAppend(p, '}', prev.start);
        PrefixDepthsExtend(p, '}', prev.start);
      }
    }
  }

  lemma OtherKeepsInvariant(p: string, ch: char)
    requires ch != '{' && ch != '}'
    requires ScanInvariant(p, Scan(p))
    ensures ScanInvariant(p + [ch], Scan(p + [ch]))
  {
    var s := p + [ch];
    var prev := Scan(p);
    assert s[..|s| - 1] == p;
    assert Depth(s) == Depth(p);
    assert Scan(s) == prev;
    SpansSurviveAppend(p, ch, prev.candidates);
    if prev.start >= 0 {
      PrefixesOfAppend(p, ch, prev.start);
      PrefixDepthsExtend(p, ch, prev.start);
    }
  }

  lemma {:induction false} ScanKeepsInvariant(s: string)
    ensures ScanInvariant(s, Scan(s))
  {
    if s != [] {
      var p := s[..|s| - 1];
      ScanKeepsInvariant(p);
      var ch := s[|s| - 1];
      if ch == '{' {
        OpenKeepsInvariant(p);
      } else if ch == '}' {
        CloseKeepsInvariant(p);
      } else {
        OtherKeepsInvariant(p, ch);
      }
      assert s == p + [s[|s| - 1]];
    }
  }

  /** Every collected candidate is a balanced span lying at the top level of the text. */
  lemma CandidatesAreTopLevelBalancedSpans(s: string)
    ensures forall c :: c in Candidates(s) ==> Balanced(c) && TopLevelSpan(s, c)
  {
    ScanKeepsInvariant(s);
  }

  /** The scanner's depth is the brace depth of what it has read. */
  lemma {:induction false} ScanDepth(s: string)
    ensures Scan(s).depth == Depth(s)
  {
    if s != [] {
      ScanDepth(s[..|s| - 1]);
    }
  }

  /** Reading on from a `{` at depth zero, the scanner keeps its start there while the depth stays positive. */
  lemma {:induction false} ScanOpenAt(s: string, p: nat, k: nat)
    requires p < k <= |s| && s[p] == '{' && Depth(s[..p]) == 0
    requires forall j :: p < j <= k ==> Depth(s[..j]) >= 1
    ensures Scan(s[..k]).start == p
  {
    var t := s[..k];
    assert t[..k - 1] == s[..k - 1];
    ScanDepth(s[..k - 1]);
    if k > p + 1 {
      ScanOpenAt(s, p, k - 1);
      assert Depth(s[..k]) == Depth(s[..k - 1]) + Delta(s[k - 1]);
    }
  }

  /** Reading more text never takes back a candidate: the candidates of a prefix are a prefix of the candidates. */
  lemma {:induction false} CandidatesOfPrefix(s: string, k: nat)
    requires k <= |s|
    ensures Candidates(s[..k]) <= Candidates(s)
    decreases |s| - k
  {
    if k == |s| {
      assert s[..k] == s;
    } else {
      CandidatesOfPrefix(s, k + 1);
      assert s[..k + 1][..k] == s[..k];
    }
  }

  /** Every balanced span that opens where the braces before it balance is collected. */
  lemma TopLevelSpanIsCandidate(s: string, p: nat, c: string)
    requires p + |c| <= |s| && s[p..p + |c|] == c && Depth(s[..p]) == 0 && Balanced(c)
    ensures c in Candidates(s)
  {
    var q := p + |c|;
    forall j | p < j < q
      ensures Depth(s[..j]) >= 1
    {
      DepthSplit(s, p, j);
      assert s[p..j] == c[..j - p];
    }
    DepthSplit(s, p, q);
    assert s[q - 1] == c[|c| - 1];
    ScanCloses(s, p, q);
    assert s[p..q] == c;
    CandidatesOfPrefix(s, q);
  }

  /** A span opened at depth zero that brings the depth back to zero at `q` is the last candidate collected by then. */
  lemma ScanCloses(s: string, p: nat, q: nat)
    requires p < q - 1 && q <= |s| && s[p] == '{' && s[q - 1] == '}'
    requires Depth(s[..p]) == 0 && Depth(s[..q]) == 0
    requires forall j :: p < j < q ==> Depth(s[..j]) >= 1
    ensures s[p..q] in Candidates(s[..q])
  {
    var t := s[..q];
    ScanOpenAt(s, p, q - 1);
    ScanDepth(s[..q - 1]);
    assert t[..q - 1] == s[..q - 1];
    assert Depth(t) == Depth(s[..q - 1]) + Delta(t[q - 1]);
    assert t[p..] == s[p..q];
  }

  /**
   * The candidates are exactly the balanced spans lying at the top level of
   * the text: the scanner misses none and invents none.
   */
  lemma CandidatesAreExactlyTopLevelBalancedSpans(s: string, c: string)
    ensures c in Candidates(s) <==> Balanced(c) && TopLevelSpan(s, c)
  {
    CandidatesAreTopLevelBalancedSpans(s);
    if Balanced(c) && TopLevelSpan(s, c) {
      var p :| 0 <= p <= |s| - |c| && s[p..p + |c|] == c && Depth(s[..p]) == 0;
      TopLevelSpanIsCandidate(s, p, c);
    }
  }

  lemma {:induction false} ScanOfBalancedPrefix(s: string, n: nat)
    requires Balanced(s) && 1 <= n < |s|
    ensures Scan(s[..n]) == ScanState(Depth(s[..n]), 0, [])
  {
    assert s[..n][..n - 1] == s[..n - 1];
    if n == 1 {
      assert s[..1][..0] == [];
    } else {
      ScanOfBalancedPrefix(s, n - 1);
      assert Depth(s[..n]) == Depth(s[..n - 1]) + Delta(s[n - 1]);
    }
  }

  /** A text that is one balanced span yields exactly itself as the only candidate. */
  lemma {:induction false} BalancedTextIsItsOwnCandidate(s: string)
    requires Balanced(s)
    ensures Candidates(s) == [s]
  {
    var n := |s| - 1;
    ScanOfBalancedPrefix(s, n);
    assert s[..|s|][..n] == s[..n];
    assert s[..|s|] == s;
    assert Depth(s) == Depth(s[..n]) + Delta(s[n]);
  }

  /**
   * An unmatched `}` before a balanced span hides that span: the scanner's
   * depth never returns to zero where the span opens, so `{...}` alone is
   * found but `}` followed by the same `{...}` does not yield it.
   */
  lemma StrayCloseHidesSpan(t: string)
    requires Balanced(t)
    ensures Candidates(t) == [t]
    ensures t !in Candidates("}" + t)
  {
    BalancedTextIsItsOwnCandidate(t);
    var s := "}" + t;
    forall p | 0 <= p <= |s| - |t|
      ensures !(s[p..p + |t|] == t && Depth(s[..p]) == 0)
    {
      if p == 0 {
        assert s[p..p + |t|][0] == '}' != t[0];
      } else {
        assert s[..1] == "}";
        assert Depth(s[..1]) == -1;
      }
    }
    assert !TopLevelSpan(s, t);
    CandidatesAreTopLevelBalancedSpans(s);
  }

  /**
   * Candidate `k` is the one tried and accepted when the candidates are
   * sorted longest first (a stable sort) and tried in that order: it is
   * valid, no valid candidate is longer, and every valid one before it is
   * strictly shorter.
   */
  ghost predicate LongestValidAt(candidates: seq<string>, isJson: string -> bool, k: int)
  {
    && 0 <= k < |candidates| && isJson(candidates[k])
    && forall j :: 0 <= j < |candidates| && isJson(candidates[j]) ==>
         |candidates[j]| <= |candidates[k]| && (j < k ==> |candidates[j]| < |candidates[k]|)
  }

  /**
   * `extract_json_from_output`: nothing for empty output; the fenced block
   * when it holds valid JSON; otherwise the longest valid brace-span
   * candidate (the earliest of equally long ones), or nothing when no
   * candidate is valid.
   */
  method ExtractJson(output: string, fence: Option<string>, isJson: string -> bool) returns (r: Option<string>)
    ensures output == "" ==> r == None
    ensures r.Some? ==> isJson(r.value)
    ensures output != "" && fence.Some? && isJson(Strip(fence.value)) ==> r == Some(Strip(fence.value))
    ensures output != "" && !(fence.Some? && isJson(Strip(fence.value))) ==>
              && (r.None? <==> forall c :: c in Candidates(output) ==> !isJson(c))
              && (r.Some? ==> exists k :: LongestValidAt(Candidates(output), isJson, k)
                                          && r.value == Candidates(output)[k])
  {
    if output == "" {
      return None;
    }
    if fence.Some? {
      var block := Strip(fence.value);
      if isJson(block) {
        return Some(block);
      }
    }
    var candidates := ScanCandidates(output);
    var best := -1;
    for i := 0 to |candidates|
      invariant -1 <= best < |candidates|
      invariant best < i
      invariant best < 0 ==> forall j :: 0 <= j < i ==> !isJson(candidates[j])
      invariant best >= 0 ==> isJson(candidates[best])
      invariant best >= 0 ==> forall j :: 0 <= j < i && isJson(candidates[j]) ==>
                  |candidates[j]| <= |candidates[best]| && (j < best ==> |candidates[j]| < |candidates[best]|)
    {
      if isJson(candidates[i]) && (best < 0 || |candidates[i]| > |candidates[best]|) {
        best := i;
      }
    }
    if best < 0 {
      r := None;
    } else {
      assert LongestValidAt(candidates, isJson, best);
      r := Some(candidates[best]);
    }
  }
}

=== FILE: ledger.dfy ===
/**
 * The manifest: the ledger of per-repository records that survives between
 * runs, the reset pass that makes unfinished records eligible again, and
 * the main loop that processes every repository, writes its record back
 * under its name and tallies the outcomes.
 */
module Ledger {
  import opened Records
  import opened Pipeline

  /** The statuses the reset pass returns to Pending. */
  predicate Resettable(s: Status)
  {
    s.Failed? || s.Pending? || s.Skipped? || s.Analysing? || s.Completed?
  }

  /** One record after the reset pass. */
  function Reset(p: Project): (r: Project)
    ensures Resettable(p.status) ==> r == p.(status := Pending, error := "", skipReason := "")
    ensures !Resettable(p.status) ==> r == p
  {
    if Resettable(p.status) then p.(status := Pending, error := "", skipReason := "") else p
  }

  /** The whole ledger after the reset pass. */
  function ResetAll(m: map<string, Project>): (r: map<string, Project>)
    ensures r.Keys == m.Keys
  {
    map k | k in m :: Reset(m[k])
  }

  /** The names of the records the reset pass changes. */
  function ResetNames(m: map<string, Project>): set<string>
  {
    set k | k in m && Resettable(m[k].status)
  }

  /**
   * After the reset pass no record is failed, skipped, analysing or
   * completed; deployed, already-live and unrecognised records are as they
   * were; the reset records carry no error and no skip reason.
   */
  lemma ResetAllOutcome(m: map<string, Project>)
    ensures forall k :: k in m ==>
              && (Resettable(m[k].status) ==>
                    ResetAll(m)[k].status == Pending && ResetAll(m)[k].error == "" && ResetAll(m)[k].skipReason == "")
              && (!Resettable(m[k].status) ==> ResetAll(m)[k] == m[k])
              && ResetAll(m)[k].status !in {Failed, Skipped, Analysing, Completed}
  {
  }

  /** Resetting twice is resetting once. */
  lemma ResetAllIdempotent(m: map<string, Project>)
    ensures ResetAll(ResetAll(m)) == ResetAll(m)
  {
  }

  /** Every record keyed by its own name. */
  predicate KeysMatchNames(m: map<string, Project>)
  {
    forall k :: k in m ==> m[k].name == k
  }

  /** The main loop's counters. */
  datatype Tally = Tally(processed: nat, deployed: nat, alreadyLive: nat, skipped: nat, failed: nat)

  /**
   * The counters after one more record with status `s`: the first matching
   * outcome counter and the processed counter go up by one.
   */
  function Bump(t: Tally, s: Status): (r: Tally)
    ensures r.processed == t.processed + 1
    ensures r.deployed + r.alreadyLive + r.skipped + r.failed
            == t.deployed + t.alreadyLive + t.skipped + t.failed
               + (if s in {Deployed, AlreadyLive, Skipped, Failed} then 1 else 0)
  {
    var t' := if s == Deployed then t.(deployed := t.deployed + 1)
              else if s == AlreadyLive then t.(alreadyLive := t.alreadyLive + 1)
              else if s == Skipped then t.(skipped := t.skipped + 1)
              else if s == Failed then t.(failed := t.failed + 1)
              else t;
    t'.(processed := t'.processed + 1)
  }

  /** The counters after the records `results`, counted in order. */
  function Count(results: seq<Project>): (t: Tally)
    ensures t.processed == |results|
  {
    if results == [] then Tally(0, 0, 0, 0, 0)
    else Bump(Count(results[..|results| - 1]), results[|results| - 1].status)
  }

  /**
   * The four outcome counters never exceed the processed counter; the
   * difference is the records left Completed (or otherwise uncounted).
   */
  lemma {:induction false} CountBound(results: seq<Project>)
    ensures var t := Count(results);
            t.deployed + t.alreadyLive + t.skipped + t.failed
            + |set i | 0 <= i < |results| && results[i].status !in {Deployed, AlreadyLive, Skipped, Failed}|
            == t.processed
  {
    if results != [] {
      var init := results[..|results| - 1];
      CountBound(init);
      var n := |results| - 1;
      var before := set i | 0 <= i < |init| && init[i].status !in {Deployed, AlreadyLive, Skipped, Failed};
      var after := set i | 0 <= i < |results| && results[i].status !in {Deployed, AlreadyLive, Skipped, Failed};
      if results[n].status in {Deployed, AlreadyLive, Skipped, Failed} {
        assert after == before;
      } else {
        assert after == before + {n};
      }
    }
  }

  /** The positions of the records with status `s`. */
  function WithStatus(results: seq<Project>, s: Status): set<int>
  {
    set i | 0 <= i < |results| && results[i].status == s
  }

  /** The outcome counter that records with status `s` go to (the processed counter for any other status). */
  function Counter(t: Tally, s: Status): nat
  {
    if s == Deployed then t.deployed
    else if s == AlreadyLive then t.alreadyLive
    else if s == Skipped then t.skipped
    else if s == Failed then t.failed
    else t.processed
  }

  /** One more record raises the counter of its own status by one and no other outcome counter. */
  lemma BumpCounter(t: Tally, status: Status, s: Status)
    requires s in {Deployed, AlreadyLive, Skipped, Failed}
    ensures Counter(Bump(t, status), s) == Counter(t, s) + (if status == s then 1 else 0)
  {
  }

  /** Each outcome counter is the number of records with its status. */
  lemma {:induction false} CountPerStatus(results: seq<Project>, s: Status)
    requires s in {Deployed, AlreadyLive, Skipped, Failed}
    ensures Counter(Count(results), s) == |WithStatus(results, s)|
  {
    if results != [] {
      var init := results[..|results| - 1];
      var n := |results| - 1;
      CountPerStatus(init, s);
      BumpCounter(Count(init), results[n].status, s);
      WithStatusStep(results, s);
    }
  }

  lemma WithStatusStep(results: seq<Project>, s: Status)
    requires results != []
    ensures |WithStatus(results, s)|
            == |WithStatus(results[..|results| - 1], s)| + (if results[|results| - 1].status == s then 1 else 0)
  {
    var n := |results| - 1;
    var last: set<int> := if results[n].status == s then {n} else {};
    WithStatusSnoc(results, s);
    assert WithStatus(results[..n], s) !! last;
  }

  lemma WithStatusSnoc(results: seq<Project>, s: Status)
    requires results != []
    ensures WithStatus(results, s)
            == WithStatus(results[..|results| - 1], s) + (if results[|results| - 1].status == s then {|results| - 1} else {})
  {
    var init := results[..|results| - 1];
    forall i | 0 <= i < |init|
      ensures init[i] == results[i]
    {
    }
  }

  /** The ledger after writing the records `results` in order, each under its own name. */
  function Written(m: map<string, Project>, results: seq<Project>): map<string, Project>
  {
    if results == [] then m
    else Written(m, results[..|results| - 1])[results[|results| - 1].name := results[|results| - 1]]
  }

  lemma {:induction false} WrittenKeys(m: map<string, Project>, results: seq<Project>)
    ensures Written(m, results).Keys == m.Keys + set i | 0 <= i < |results| :: results[i].name
  {
    if results != [] {
      var init := results[..|results| - 1];
      WrittenKeys(m, init);
      var n := |results| - 1;
      assert (set i | 0 <= i < |results| :: results[i].name)
             == (set i | 0 <= i < |init| :: init[i].name) + {results[n].name};
    }
  }

  /** The ledger part-way through the reset pass: the records named in `done` reset, the rest untouched. */
  function PartlyReset(m: map<string, Project>, done: set<string>): (r: map<string, Project>)
    ensures r.Keys == m.Keys
  {
    map k | k in m :: if k in done then Reset(m[k]) else m[k]
  }

  lemma PartlyResetStep(m: map<string, Project>, done: set<string>, name: string)
    requires name in m
    ensures PartlyReset(m, done)[name := Reset(m[name])] == PartlyReset(m, done + {name})
  {
  }

  lemma PartlyResetAll(m: map<string, Project>)
    ensures PartlyReset(m, m.Keys) == ResetAll(m)
  {
  }

  /** One step of the reset pass: the record `name` is reset and, when it is resettable, counted. */
  lemma ResetStep(m: map<string, Project>, done: set<string>, resetSoFar: set<string>, name: string)
    requires name in m && name !in done
    requires forall k :: k in resetSoFar <==> k in done && k in m && Resettable(m[k].status)
    ensures PartlyReset(m, done)[name] == m[name]
    ensures PartlyReset(m, done)[name := Reset(m[name])] == PartlyReset(m, done + {name})
    ensures var next := if Resettable(m[name].status) then resetSoFar + {name} else resetSoFar;
            && (forall k :: k in next <==> k in done + {name} && k in m && Resettable(m[k].status))
            && |next| == |resetSoFar| + (if Resettable(m[name].status) then 1 else 0)
  {
    PartlyResetStep(m, done, name);
  }

  /** What the main loop relies on about the record `process_repo` returns for `repo` against ledger `m`. */
  ghost predicate ProcessedRecord(cfg: Config, repo: Repo, m: map<string, Project>, p: Project)
  {
    && (Cached(cfg, repo.name, m) ==> p == m[repo.name])
    && (!Cached(cfg, repo.name, m) ==> Consistent(p) && p.name == repo.name)
  }

  /** Every record in `results` was returned by `process_repo` for the matching repository, against the ledger as it stood. */
  ghost predicate AllProcessed(cfg: Config, m0: map<string, Project>, repos: seq<Repo>, results: seq<Project>)
  {
    && |results| <= |repos|
    && forall j :: 0 <= j < |results| ==> ProcessedRecord(cfg, repos[j], Written(m0, results[..j]), results[j])
  }

  lemma ProcessedStep(cfg: Config, m0: map<string, Project>, repos: seq<Repo>, results: seq<Project>, p: Project)
    requires AllProcessed(cfg, m0, repos, results) && |results| < |repos|
    requires ProcessedRecord(cfg, repos[|results|], Written(m0, results), p)
    ensures AllProcessed(cfg, m0, repos, results + [p])
    ensures Written(m0, results + [p]) == Written(m0, results)[p.name := p]
  {
    var r := results + [p];
    assert r[..|r| - 1] == results;
    forall j | 0 <= j < |r|
      ensures ProcessedRecord(cfg, repos[j], Written(m0, r[..j]), r[j])
    {
      if j < |results| {
        assert r[..j] == results[..j];
      }
    }
  }

  lemma AllProcessedPrefix(cfg: Config, m0: map<string, Project>, repos: seq<Repo>, results: seq<Project>)
    requires AllProcessed(cfg, m0, repos, results) && results != []
    ensures AllProcessed(cfg, m0, repos, results[..|results| - 1])
    ensures ProcessedRecord(cfg, repos[|results| - 1], Written(m0, results[..|results| - 1]), results[|results| - 1])
  {
    var init := results[..|results| - 1];
    forall j | 0 <= j < |init|
      ensures ProcessedRecord(cfg, repos[j], Written(m0, init[..j]), init[j])
    {
      assert init[..j] == results[..j];
    }
  }

  /** Writing processed records removes no name. */
  lemma {:induction false} WrittenKeepsNames(m0: map<string, Project>, results: seq<Project>)
    ensures m0.Keys <= Written(m0, results).Keys
  {
    if results != [] {
      WrittenKeepsNames(m0, results[..|results| - 1]);
    }
  }

  /**
   * With every record keyed by its own name, writing processed records
   * keeps it so, and each record is the one for its repository's name.
   */
  lemma {:induction false} WrittenKeepsKeys(cfg: Config, m0: map<string, Project>, repos: seq<Repo>, results: seq<Project>)
    requires AllProcessed(cfg, m0, repos, results) && KeysMatchNames(m0)
    ensures KeysMatchNames(Written(m0, results))
    ensures forall i :: 0 <= i < |results| ==> results[i].name == repos[i].name
  {
    if results != [] {
      var n := |results| - 1;
      AllProcessedPrefix(cfg, m0, repos, results);
      var init := results[..n];
      WrittenKeepsKeys(cfg, m0, repos, init);
      var m := Written(m0, init);
      var p := results[n];
      assert p.name == repos[n].name;
      assert Written(m0, results) == m[p.name := p];
      NamesExtend(results, repos);
    }
  }

  lemma NamesExtend(results: seq<Project>, repos: seq<Repo>)
    requires 0 < |results| <= |repos|
    requires forall i :: 0 <= i < |results| - 1 ==> results[..|results| - 1][i].name == repos[i].name
    requires results[|results| - 1].name == repos[|results| - 1].name
    ensures forall i :: 0 <= i < |results| ==> results[i].name == repos[i].name
  {
    assert forall i :: 0 <= i < |results| - 1 ==> results[..|results| - 1][i] == results[i];
  }

  /** With SKIP_EXISTING, a deployed or already-live record is never replaced. */
  lemma {:induction false} WrittenKeepsSticky(cfg: Config, m0: map<string, Project>, repos: seq<Repo>, results: seq<Project>)
    requires AllProcessed(cfg, m0, repos, results) && KeysMatchNames(m0) && cfg.skipExisting
    ensures forall k :: k in m0 && Sticky(m0[k].status) ==> k in Written(m0, results) && Written(m0, results)[k] == m0[k]
  {
    if results != [] {
      var n := |results| - 1;
      AllProcessedPrefix(cfg, m0, repos, results);
      WrittenKeepsSticky(cfg, m0, repos, results[..n]);
      WrittenKeepsKeys(cfg, m0, repos, results[..n]);
      WrittenKeepsNames(m0, results[..n]);
    }
  }

  /** A consistent ledger stays consistent. */
  lemma {:induction false} WrittenKeepsConsistent(cfg: Config, m0: map<string, Project>, repos: seq<Repo>, results: seq<Project>)
    requires AllProcessed(cfg, m0, repos, results)
    requires forall k :: k in m0 ==> Consistent(m0[k])
    ensures forall k :: k in Written(m0, results) ==> Consistent(Written(m0, results)[k])
  {
    if results != [] {
      AllProcessedPrefix(cfg, m0, repos, results);
      WrittenKeepsConsistent(cfg, m0, repos, results[..|results| - 1]);
    }
  }

  class Manifest {
    var projects: map<string, Project>
    var lastRun: string

    /** `load_manifest` with no file yet: an empty ledger. */
    constructor Empty()
      ensures projects == map[] && lastRun == ""
    {
      projects := map[];
      lastRun := "";
    }

    /**
     * `reset_manifest_for_retry`: every failed, pending, skipped, analysing or
     * completed record becomes pending with no error and no skip reason;
     * nothing else changes. The count is the number of records reset.
     */
    method ResetForRetry() returns (count: nat)
      modifies this
      ensures projects == ResetAll(old(projects))
      ensures count == |ResetNames(old(projects))|
      ensures lastRun == old(lastRun)
    {
      ghost var m0 := projects;
      var remaining := projects.Keys;
      ghost var done: set<string> := {};
      ghost var resetSoFar: set<string> := {};
      count := 0;
      while remaining != {}
        invariant remaining !! done && remaining + done == m0.Keys
        invariant projects == PartlyReset(m0, done)
        invariant forall k :: k in resetSoFar <==> k in done && k in m0 && Resettable(m0[k].status)
        invariant count == |resetSoFar|
        invariant lastRun == old(lastRun)
        decreases |remaining|
      {
        var name :| name in remaining;
        ResetStep(m0, done, resetSoFar, name);
        var reset := ResetEntry(name);
        if reset {
          count := count + 1;
          resetSoFar := resetSoFar + {name};
        }
        remaining := remaining - {name};
        done := done + {name};
      }
      PartlyResetAll(m0);
      assert resetSoFar == ResetNames(m0);
    }

    /** The loop body of the reset pass for one record: reset it when its status is resettable. */
    method ResetEntry(name: string) returns (reset: bool)
      requires name in projects
      modifies this
      ensures reset == Resettable(old(projects)[name].status)
      ensures projects == old(projects)[name := Reset(old(projects)[name])]
      ensures lastRun == old(lastRun)
    {
      var data := projects[name];
      reset := Resettable(data.status);
      if reset {
        projects := projects[name := data.(status := Pending, error := "", skipReason := "")];
      } else {
        assert projects[name := data] == projects;
      }
    }

    /**
     * The main loop: each repository is processed against the ledger as it
     * stands, its record is written under the record's name and the ledger
     * is saved, and the outcome is tallied. With every record keyed by its
     * own name, that stays so; with SKIP_EXISTING, a deployed or already-live
     * record is never replaced; a consistent ledger stays consistent.
     */
    method Sweep(cfg: Config, world: World, now: string, repos: seq<Repo>)
      returns (tally: Tally, results: seq<Project>)
      modifies this
      ensures |results| == |repos| && tally == Count(results)
      ensures projects == Written(old(projects), results)
      ensures old(projects).Keys <= projects.Keys
      ensures repos != [] ==> lastRun == now
      ensures KeysMatchNames(old(projects)) ==>
                KeysMatchNames(projects) && forall i :: 0 <= i < |repos| ==> results[i].name == repos[i].name
      ensures KeysMatchNames(old(projects)) && cfg.skipExisting ==>
                forall k :: k in old(projects) && Sticky(old(projects)[k].status) ==> projects[k] == old(projects)[k]
      ensures (forall k :: k in old(projects) ==> Consistent(old(projects)[k])) ==>
                forall k :: k in projects ==> Consistent(projects[k])
    {
      tally, results := Tally(0, 0, 0, 0, 0), [];
      for i := 0 to |repos|
        invariant |results| == i && tally == Count(results)
        invariant projects == Written(old(projects), results)
        invariant i > 0 ==> lastRun == now
        invariant AllProcessed(cfg, old(projects), repos, results)
      {
        var project := ProcessOne(cfg, world, now, repos[i]);
        ProcessedStep(cfg, old(projects), repos, results, project);
        assert (results + [project])[..|results|] == results;
        results := results + [project];
        tally := Bump(tally, project.status);
      }
      WrittenKeepsNames(old(projects), results);
      if KeysMatchNames(old(projects)) {
        WrittenKeepsKeys(cfg, old(projects), repos, results);
        if cfg.skipExisting {
          WrittenKeepsSticky(cfg, old(projects), repos, results);
        }
      }
      if forall k :: k in old(projects) ==> Consistent(old(projects)[k]) {
        WrittenKeepsConsistent(cfg, old(projects), repos, results);
      }
    }

    /** One iteration of the main loop: process the repository against the ledger, write its record back under its name. */
    method ProcessOne(cfg: Config, world: World, now: string, repo: Repo) returns (project: Project)
      modifies this
      ensures ProcessedRecord(cfg, repo, old(projects), project)
      ensures projects == old(projects)[project.name := project]
      ensures lastRun == now
    {
      var trace;
      project, trace := ProcessRepo(cfg, world, now, repo, projects);
      projects := projects[project.name := project];
      lastRun := now;
    }

    /**
     * One run of `main` up to the end of the repository loop: the reset
     * pass, then the sweep over the listed repositories.
     */
    method Run(cfg: Config, world: World, now: string, repos: seq<Repo>)
      returns (resetCount: nat, tally: Tally, results: seq<Project>)
      modifies this
      ensures resetCount == |ResetNames(old(projects))|
      ensures |results| == |repos| && tally == Count(results)
      ensures projects == Written(ResetAll(old(projects)), results)
      ensures projects.Keys == old(projects).Keys + set i | 0 <= i < |results| :: results[i].name
      ensures KeysMatchNames(old(projects)) && cfg.skipExisting ==>
                forall k :: k in old(projects) && Sticky(old(projects)[k].status) ==> projects[k] == old(projects)[k]
    {
      resetCount := ResetForRetry();
      lastRun := now;
      assert KeysMatchNames(old(projects)) ==> KeysMatchNames(projects);
      tally, results := Sweep(cfg, world, now, repos);
      WrittenKeys(ResetAll(old(projects)), results);
    }
  }
}

=== FILE: liveness.dfy ===
/**
 * The liveness probe: the public URLs where a repository might already be
 * served, the test that one of them serves a real page, and the search for
 * the first such URL.
 */
module Liveness {
  import opened Strings
  import opened Records

  ghost predicate NoDuplicates<T>(s: seq<T>)
  {
    forall i, j :: 0 <= i < j < |s| ==> s[i] != s[j]
  }

  /** The position of the first occurrence of `x` in `s`. */
  function FirstIndex<T(==)>(s: seq<T>, x: T): (k: nat)
    requires x in s
    ensures k < |s| && s[k] == x && x !in s[..k]
  {
    if s[0] == x then 0
    else
      var k := 1 + FirstIndex(s[1..], x);
      assert s[..k] == [s[0]] + s[1..][..k - 1];
      k
  }

  /**
   * `list(dict.fromkeys(s))`: the elements of `s`, each once, in the order of
   * their first occurrence.
   */
  function Dedupe<T(==,!new)>(s: seq<T>): (r: seq<T>)
    ensures NoDuplicates(r)
    ensures forall x :: x in r <==> x in s
  {
    if s == [] then []
    else
      var r := Dedupe(s[..|s| - 1]);
      var x := s[|s| - 1];
      assert s == s[..|s| - 1] + [x];
      if x in r then r else r + [x]
  }

  /** The first occurrence is the only position holding `x` with no `x` before it. */
  lemma {:induction false} FirstIndexUnique<T>(s: seq<T>, x: T, j: nat)
    requires j < |s| && s[j] == x && x !in s[..j]
    ensures FirstIndex(s, x) == j
  {
    if j > 0 {
      assert s[0] in s[..j];
      assert s[1..][..j - 1] == s[..j][1..];
      FirstIndexUnique(s[1..], x, j - 1);
    }
  }

  lemma {:induction false} FirstIndexOfPrefix<T>(s: seq<T>, n: nat, x: T)
    requires n <= |s| && x in s[..n]
    ensures FirstIndex(s, x) == FirstIndex(s[..n], x)
  {
    var k' := FirstIndex(s[..n], x);
    assert s[..n][..k'] == s[..k'];
    FirstIndexUnique(s, x, k');
  }

  /** Deduplication keeps the first-occurrence order of the elements it keeps. */
  lemma {:induction false} DedupeKeepsFirstOccurrenceOrder<T(!new)>(s: seq<T>)
    ensures forall i, j :: 0 <= i < j < |Dedupe(s)| ==>
              FirstIndex(s, Dedupe(s)[i]) < FirstIndex(s, Dedupe(s)[j])
  {
    if s != [] {
      var init, x := s[..|s| - 1], s[|s| - 1];
      var r := Dedupe(init);
      DedupeKeepsFirstOccurrenceOrder(init);
      forall y | y in r
        ensures FirstIndex(s, y) == FirstIndex(init, y) < |s| - 1
      {
        FirstIndexOfPrefix(s, |s| - 1, y);
      }
      if x !in r {
        assert Dedupe(s) == r + [x];
        assert x !in init;
        FirstIndexUnique(s, x, |s| - 1);
        forall i, j | 0 <= i < j < |Dedupe(s)|
          ensures FirstIndex(s, Dedupe(s)[i]) < FirstIndex(s, Dedupe(s)[j])
        {
          if j < |r| {
            assert Dedupe(s)[i] == r[i] && Dedupe(s)[j] == r[j];
          } else {
            assert Dedupe(s)[i] == r[i] && r[i] in r;
          }
        }
      }
    }
  }

  /** The first element of the input stays first, and the second stays second when it differs. */
  lemma {:induction false} DedupeKeepsHead<T(!new)>(s: seq<T>)
    requires |s| >= 2 && s[0] != s[1]
    ensures |Dedupe(s)| >= 2 && Dedupe(s)[0] == s[0] && Dedupe(s)[1] == s[1]
  {
    var r := Dedupe(s);
    DedupeKeepsFirstOccurrenceOrder(s);
    assert FirstIndex(s, s[0]) == 0;
    assert FirstIndex(s, s[1]) == 1 by {
      assert s[..1] == [s[0]];
    }
    assert s[0] in r && s[1] in r;
    var a :| 0 <= a < |r| && r[a] == s[0];
    var b :| 0 <= b < |r| && r[b] == s[1];
    assert a != b;
    var first0 := FirstIndex(s, r[0]);
    assert a == 0;
    var first1 := FirstIndex(s, r[1]);
    assert b == 1;
  }

  function PagesUrl(account: string, name: string): string
  {
    "https://" + Lower(account) + ".github.io/" + name
  }

  /** A match of the URL pattern `https?://[^\s<>"]+`: it begins with "http". */
  type MatchedUrl = u: string | StartsWith(u, "http") witness "http"

  /**
   * The candidate URLs in the order they are generated: the pages URL with
   * and without a trailing slash, the two provider name guesses, the homepage
   * field when it is an http(s) URL, and the URLs found in the description
   * (`descriptionUrls` is what the URL regular expression finds there).
   */
  function GeneratedUrls(account: string, repo: Repo, descriptionUrls: seq<MatchedUrl>): seq<string>
  {
    [PagesUrl(account, repo.name) + "/",
     PagesUrl(account, repo.name),
     "https://mh-" + Take(repo.name, 30) + ".onrender.com",
     "https://" + repo.name + ".onrender.com"]
    + (if repo.homepage != "" && StartsWith(repo.homepage, "http") then [repo.homepage] else [])
    + descriptionUrls
  }

  /** No generated URL is empty: each begins with "http". */
  lemma GeneratedUrlsNonEmpty(account: string, repo: Repo, descriptionUrls: seq<MatchedUrl>)
    ensures forall u :: u in GeneratedUrls(account, repo, descriptionUrls) ==> u != ""
  {
    var g := GeneratedUrls(account, repo, descriptionUrls);
    forall u | u in g
      ensures u != ""
    {
      var i :| 0 <= i < |g| && g[i] == u;
      if i >= |g| - |descriptionUrls| {
        assert u == descriptionUrls[i - (|g| - |descriptionUrls|)];
        assert StartsWith(u, "http");
      }
    }
  }

  /** `get_candidate_urls`: the generated URLs with repeats dropped. */
  function CandidateUrls(account: string, repo: Repo, descriptionUrls: seq<MatchedUrl>): seq<string>
  {
    Dedupe(GeneratedUrls(account, repo, descriptionUrls))
  }

  /**
   * The candidates are exactly the generated URLs, each once, the pages URLs
   * first, every URL at the place of its first generation.
   */
  lemma CandidateUrlsSpec(account: string, repo: Repo, descriptionUrls: seq<MatchedUrl>)
    ensures var r := CandidateUrls(account, repo, descriptionUrls);
            && NoDuplicates(r)
            && (forall u :: u in r <==> u in GeneratedUrls(account, repo, descriptionUrls))
            && |r| >= 2
            && r[0] == PagesUrl(account, repo.name) + "/" && r[1] == PagesUrl(account, repo.name)
            && forall i, j :: 0 <= i < j < |r| ==>
                 FirstIndex(GeneratedUrls(account, repo, descriptionUrls), r[i])
                 < FirstIndex(GeneratedUrls(account, repo, descriptionUrls), r[j])
  {
    var g := GeneratedUrls(account, repo, descriptionUrls);
    assert |g[0]| != |g[1]|;
    DedupeKeepsHead(g);
    DedupeKeepsFirstOccurrenceOrder(g);
  }

  /** No candidate URL is empty. */
  lemma CandidateUrlsNonEmpty(account: string, repo: Repo, descriptionUrls: seq<MatchedUrl>)
    ensures forall u :: u in CandidateUrls(account, repo, descriptionUrls) ==> u != ""
  {
    GeneratedUrlsNonEmpty(account, repo, descriptionUrls);
  }

  /** The outcome of one GET of a candidate URL: a response, or an exception raised by the request. */
  datatype ProbeResponse = Raised | Response(status: int, text: string)

  const ErrorSignals: seq<string> :=
    ["404", "not found", "page not found", "site not found", "suspended",
     "there isn't a github pages site", "this page could not be found", "404.html"]

  predicate HasErrorSignal(body: string)
  {
    exists k | 0 <= k < |ErrorSignals| :: Contains(body, ErrorSignals[k])
  }

  /** The text the probe inspects: the first 2000 characters, lower-cased. */
  function ProbedBody(text: string): string
  {
    Lower(Take(text, 2000))
  }

  /**
   * `check_url_live`: a response counts as live when its status is below
   * 400, its inspected body is at least 100 characters once stripped, and it
   * carries no error signal. A raised request is never live.
   */
  predicate IsLive(resp: ProbeResponse)
  {
    match resp
    case Raised => false
    case Response(status, text) =>
      if status >= 400 then false
      else
        var body := ProbedBody(text);
        if |Strip(body)| < 100 then false
        else !HasErrorSignal(body)
  }

  /**
   * A response is live exactly when it is not an error status, its inspected
   * body keeps at least 100 characters once stripped, and that body contains
   * none of the independent error signals; so a live response has at least
   * 100 characters of text and never mentions "404".
   */
  lemma LiveResponse(resp: ProbeResponse)
    ensures IsLive(resp) <==>
              && resp.Response? && resp.status < 400
              && |Strip(ProbedBody(resp.text))| >= 100
              && forall k | 0 <= k < |IndependentSignals| :: !Contains(ProbedBody(resp.text), IndependentSignals[k])
    ensures IsLive(resp) ==> resp.Response? && resp.status < 400 && |resp.text| >= 100
    ensures IsLive(resp) ==> !Contains(ProbedBody(resp.text), "404")
  {
    if resp.Response? {
      var body := ProbedBody(resp.text);
      ErrorSignalsReduce(body);
      assert Contains(body, ErrorSignals[0]) ==> HasErrorSignal(body);
    }
  }

  /** The signals that are not implied by a shorter signal of the list. */
  const IndependentSignals: seq<string> :=
    ["404", "not found", "suspended", "there isn't a github pages site", "this page could not be found"]

  /**
   * Three of the eight error signals are redundant: "page not found" and
   * "site not found" contain "not found", and "404.html" contains "404".
   */
  lemma ErrorSignalsReduce(body: string)
    ensures HasErrorSignal(body) <==>
            exists k | 0 <= k < |IndependentSignals| :: Contains(body, IndependentSignals[k])
  {
    if HasErrorSignal(body) {
      var k :| 0 <= k < |ErrorSignals| && Contains(body, ErrorSignals[k]);
      if k == 2 {
        assert ErrorSignals[2] == "page " + "not found";
        ContainsSuffixOfNeedle(body, "page ", "not found");
        assert Contains(body, IndependentSignals[1]);
      } else if k == 3 {
        assert ErrorSignals[3] == "site " + "not found";
        ContainsSuffixOfNeedle(body, "site ", "not found");
        assert Contains(body, IndependentSignals[1]);
      } else if k == 7 {
        assert ErrorSignals[7] == "404" + ".html";
        ContainsPrefixOfNeedle(body, "404", ".html");
        assert Contains(body, IndependentSignals[0]);
      } else if k == 0 {
        assert Contains(body, IndependentSignals[0]);
      } else if k == 1 {
        assert Contains(body, IndependentSignals[1]);
      } else if k == 4 {
        assert Contains(body, IndependentSignals[2]);
      } else if k == 5 {
        assert Contains(body, IndependentSignals[3]);
      } else {
        assert Contains(body, IndependentSignals[4]);
      }
    } else {
      forall k | 0 <= k < |IndependentSignals|
        ensures !Contains(body, IndependentSignals[k])
      {
        var j := [0, 1, 4, 5, 6][k];
        assert IndependentSignals[k] == ErrorSignals[j];
      }
    }
  }

  /** The result of the search: whether a live URL was found, which one, and the URLs requested. */
  datatype Found = Found(isLive: bool, url: string, probed: seq<string>)

  /**
   * `find_existing_deployment`: candidates are requested in order and the
   * first live one is returned; no later candidate is requested. With no live
   * candidate every candidate has been requested and the result is (false, "").
   * `live(u)` is `check_url_live` for the URL `u`.
   */
  function FindExistingDeployment(candidates: seq<string>, live: string -> bool): (r: Found)
    ensures r.probed <= candidates
    ensures r.isLive ==> |r.probed| >= 1 && r.url == r.probed[|r.probed| - 1] && live(r.url)
    ensures !r.isLive ==> r.url == "" && r.probed == candidates
    ensures forall k :: 0 <= k < |r.probed| - (if r.isLive then 1 else 0) ==> !live(r.probed[k])
  {
    if candidates == [] then Found(false, "", [])
    else if live(candidates[0]) then Found(true, candidates[0], [candidates[0]])
    else
      var rest := FindExistingDeployment(candidates[1..], live);
      assert candidates == [candidates[0]] + candidates[1..];
      Found(rest.isLive, rest.url, [candidates[0]] + rest.probed)
  }

  /** A URL found live is one of the candidates. */
  lemma FoundIsCandidate(candidates: seq<string>, live: string -> bool)
    ensures var r := FindExistingDeployment(candidates, live);
            r.isLive ==> r.url in candidates
  {
    var r := FindExistingDeployment(candidates, live);
    if r.isLive {
      assert r.url == candidates[|r.probed| - 1];
    }
  }
}

=== FILE: pipeline.dfy ===
/**
 * The per-repository pipeline: the skip rules, then the liveness probe,
 * the classification, the clone, the completion (the tier-0 quick fix or
 * the coding agent) and the deployment, each of which can end the run for
 * that repository with a status.
 *
 * Everything the pipeline learns from outside is an oracle in `World`,
 * keyed by repository name (or URL, for the probe); everything it does to
 * the outside is reported in a `Trace`.
 */
module Pipeline {
  import opened Wrappers
  import opened Strings
  import opened Records
  import opened Liveness
  import opened Classifier
  import opened Render

  const SkipRepos: set<string> := {"mathew-harvey", ".github"}

  datatype SkipDecision = SkipDecision(skip: bool, reason: string)

  /**
   * `should_skip_repo`: the first of four checks that holds gives the reason —
   * the lower-cased name is on the skip list, the repository is a fork, it is
   * archived, it is empty (size 0). A skip always has a reason; no skip has none.
   */
  function ShouldSkip(repo: Repo): (d: SkipDecision)
    ensures d.skip <==> Lower(repo.name) in SkipRepos || repo.fork || repo.archived || repo.size == 0
    ensures d.skip <==> d.reason != ""
    ensures Lower(repo.name) in SkipRepos ==> d.reason == "In skip list"
    ensures Lower(repo.name) !in SkipRepos && repo.fork ==> d.reason == "Fork"
    ensures Lower(repo.name) !in SkipRepos && !repo.fork && repo.archived ==> d.reason == "Archived"
    ensures Lower(repo.name) !in SkipRepos && !repo.fork && !repo.archived && repo.size == 0 ==>
              d.reason == "Empty repo"
  {
    if Lower(repo.name) in SkipRepos then SkipDecision(true, "In skip list")
    else if repo.fork then SkipDecision(true, "Fork")
    else if repo.archived then SkipDecision(true, "Archived")
    else if repo.size == 0 then SkipDecision(true, "Empty repo")
    else SkipDecision(false, "")
  }

  /** The skip list is matched without regard to letter case. */
  lemma SkipListIgnoresCase(repo: Repo, other: Repo)
    requires Lower(repo.name) == Lower(other.name)
    requires repo.fork == other.fork && repo.archived == other.archived && repo.size == other.size
    ensures ShouldSkip(repo) == ShouldSkip(other)
  {
  }

  /**
   * The outside world as the pipeline sees it: what the URL pattern finds
   * in a description, the answer to a GET of a URL, the blob paths of a
   * repository's tree (empty when the tree cannot be fetched), the clone's
   * error message (if any), the working copy after the clone, the agent's
   * completion verdict and the working copy it leaves, the provider's answers
   * for each deployment attempt, and the agent's verdict and working copy
   * for each deployment fix.
   */
  datatype World = World(
    descriptionUrls: string -> seq<MatchedUrl>,
    probe: string -> ProbeResponse,
    tree: string -> set<string>,
    cloneError: string -> Option<string>,
    checkout: string -> WorkingCopy,
    completionOk: string -> bool,
    completed: string -> WorkingCopy,
    respond: string -> nat -> (Payload, nat) -> PostOutcome,
    fixOk: string -> nat -> bool,
    fixed: string -> nat -> WorkingCopy)

  /**
   * What one repository's processing did outside: the URLs probed, whether
   * it cloned, the turn limits of the completion calls to the agent, the
   * pushes, the deployment attempts' results and the errors handed to the
   * agent for fixing.
   */
  datatype Trace = Trace(
    probed: seq<string>,
    cloned: bool,
    completionTurns: seq<nat>,
    pushes: nat,
    deployResults: seq<DeployResult>,
    fixRequests: seq<string>)

  const NoTrace := Trace([], false, [], 0, [], [])

  /**
   * Every error handed to the agent for fixing is the error of the
   * deployment attempt it follows, and is neither empty nor a rate limit.
   */
  predicate FixRequestsGuarded(results: seq<DeployResult>, fixRequests: seq<string>)
  {
    && |fixRequests| <= |results|
    && forall k :: 0 <= k < |fixRequests| ==>
         fixRequests[k] == results[k].error && fixRequests[k] != "" && !MentionsRateLimit(fixRequests[k])
  }

  /**
   * `complete_project_tiered`: tier 0 (or below) never calls the agent and
   * succeeds; tier 1 calls it with 15 turns, higher tiers with 30, and the
   * agent's verdict is the result.
   */
  function CompleteTiered(tier: int, agentOk: bool): (r: (bool, seq<nat>))
    ensures tier <= 0 ==> r == (true, [])
    ensures tier >= 1 ==> r.0 == agentOk && |r.1| == 1
    ensures tier == 1 ==> r.1 == [15]
    ensures tier >= 2 ==> r.1 == [30]
  {
    if tier <= 0 then (true, [])
    else (agentOk, [if tier == 1 then 15 else 30])
  }

  /** The ledger holds a record for `name` that is never revisited, and the run honours that. */
  predicate Cached(cfg: Config, name: string, projects: map<string, Project>)
  {
    cfg.skipExisting && name in projects && Sticky(projects[name].status)
  }

  /**
   * The tech stack and category a record takes from a classification: the
   * fallbacks the code provides for an empty stack (the declared language)
   * and an empty category are written out even though they never apply.
   */
  function StackOrLanguage(stack: seq<string>, language: string): seq<string>
  {
    if stack != [] then stack else if language != "" then [language] else []
  }

  function CategoryOr(category: string, fallback: string): string
  {
    if category != "" then category else fallback
  }

  /**
   * The fallbacks never apply: a classification's stack is empty only when
   * no language is declared, and its category is never empty.
   */
  lemma FallbacksAreDead(repo: Repo, blobPaths: set<string>, fallback: string)
    ensures var c := Classify(repo.language, blobPaths);
            StackOrLanguage(c.techStack, repo.language) == c.techStack
            && CategoryOr(c.category, fallback) == c.category
  {
    var c := Classify(repo.language, blobPaths);
    if c.techStack == [] {
      assert repo.language == "";
    }
  }

  /** The description fallback: a record without a description takes the repository's, else its name. */
  function Described(p: Project, repo: Repo): (r: Project)
    ensures r == p.(description := r.description)
    ensures p.description != "" ==> r.description == p.description
    ensures p.description == "" ==> r.description == (if repo.description != "" then repo.description else repo.name)
  {
    if p.description != "" then p
    else p.(description := if repo.description != "" then repo.description else repo.name)
  }

  /** The classification's stack and category (with the code's fallbacks) written into a record. */
  function Classified(p: Project, c: Classification, fallback: string): (r: Project)
    ensures r == p.(techStack := r.techStack, category := r.category)
  {
    p.(techStack := StackOrLanguage(c.techStack, p.language), category := CategoryOr(c.category, fallback))
  }

  /**
   * The record of a repository found live at `url`: AlreadyLive with that
   * URL, the classification's stack and category, and its description
   * filled in.
   */
  function LiveRecord(repo: Repo, url: string, blobPaths: set<string>, now: string): (p: Project)
    requires url != ""
    ensures Consistent(p) && SameIdentity(p, repo)
    ensures p.status == AlreadyLive && p.deployUrl == url && p.completedAt == now
    ensures p.techStack == Classify(repo.language, blobPaths).techStack
    ensures p.category == Classify(repo.language, blobPaths).category
  {
    FallbacksAreDead(repo, blobPaths, "web-app");
    var p := NewProject(repo).(status := AlreadyLive, deployUrl := url, completedAt := now);
    Described(Classified(p, Classify(repo.language, blobPaths), "web-app"), repo)
  }

  /** The record of a repository found not live, once classified: still Pending. */
  function ClassifiedRecord(repo: Repo, blobPaths: set<string>): (p: Project)
    ensures SameIdentity(p, repo)
    ensures p.status == Pending && p.deployUrl == "" && p.error == "" && p.skipReason == ""
    ensures p.techStack == Classify(repo.language, blobPaths).techStack
    ensures p.category == Classify(repo.language, blobPaths).category
  {
    FallbacksAreDead(repo, blobPaths, "other");
    Described(Classified(NewProject(repo), Classify(repo.language, blobPaths), "other"), repo)
  }

  /** The fields a fresh record keeps from the repository until the pipeline ends. */
  predicate SameIdentity(p: Project, repo: Repo)
  {
    p.name == repo.name && p.githubUrl == repo.htmlUrl && p.language == repo.language && p.isFork == repo.fork
  }

  /**
   * A Deployed record carries the service URL for `name`, which is the URL
   * the last deployment attempt of the trace returned.
   */
  predicate DeployedAsTraced(p: Project, trace: Trace, name: string)
  {
    p.status == Deployed ==>
      p.deployUrl == LiveUrl(ServiceName(name)) && trace.deployResults != []
      && trace.deployResults[|trace.deployResults| - 1].url == Some(p.deployUrl)
  }

  /**
   * What the phases after the probe promise for a repository not found
   * live, classified as `c`: a near-empty tree is Skipped as empty; a dry
   * run stops at Completed with nothing cloned or deployed; tier 0 never
   * calls the agent, tiers 1 and 2 call it once, with 15 or 30 turns.
   */
  predicate NotLiveOutcome(cfg: Config, p: Project, trace: Trace, c: Classification, live: bool)
  {
    !live ==>
      && (c.fileCount <= 1 ==> p.status == Skipped && p.skipReason == "Empty or README-only repo")
      && (c.fileCount > 1 && cfg.dryRun ==> p.status == Completed && !trace.cloned && trace.deployResults == [])
      && (c.tier == 0 ==> trace.completionTurns == [])
      && (c.tier >= 1 && (trace.deployResults != [] || p.error == "Completion failed") ==>
            trace.cloned && trace.completionTurns == [if c.tier == 1 then 15 else 30])
  }

  /**
   * The deployment phase: the record is marked Completed, up to two
   * deployment attempts run with the agent's self-healing in between, and
   * a successful attempt turns the record Deployed with its URL. A failed
   * deployment leaves it Completed with no URL.
   */
  method DeployPhase(cfg: Config, world: World, now: string, p: Project, copy: WorkingCopy)
    returns (q: Project, results: seq<DeployResult>, fixRequests: seq<string>)
    requires p.deployUrl == ""
    ensures q.name == p.name && q.githubUrl == p.githubUrl && q.language == p.language && q.isFork == p.isFork
    ensures q.techStack == p.techStack && q.category == p.category
    ensures q.skipReason == p.skipReason && q.error == p.error
    ensures 1 <= |results| <= 2 && |fixRequests| <= 1
    ensures FixRequestsGuarded(results, fixRequests)
    ensures q.status == Deployed || q.status == Completed
    ensures q.status == Deployed <==> results[|results| - 1].url.Some?
    ensures q.status == Deployed ==>
              q.deployUrl == LiveUrl(ServiceName(p.name)) && results[|results| - 1].url == Some(q.deployUrl)
    ensures q.status == Completed ==> q.deployUrl == "" && forall k :: 0 <= k < |results| ==> results[k].url.None?
  {
    q := p.(status := Completed);
    var url;
    url, results, fixRequests :=
      DeployWithRetry(cfg, q, copy, 2, world.respond(p.name), world.fixOk(p.name), world.fixed(p.name));
    if url.Some? {
      q := q.(deployUrl := url.value, status := Deployed);
    }
    q := q.(completedAt := now);
  }

  /**
   * The phases after a repository is found not live: classification
   * already written into `p`; the empty-repository skip, the dry-run stop,
   * the clone, the completion and the deployment.
   */
  method CompleteAndDeploy(cfg: Config, world: World, now: string, repo: Repo, p: Project, c: Classification,
                           probed: seq<string>)
    returns (q: Project, trace: Trace)
    requires p.status == Pending && p.deployUrl == "" && p.error == "" && p.skipReason == ""
    requires p.name == repo.name
    ensures q.name == p.name && q.githubUrl == p.githubUrl && q.language == p.language && q.isFork == p.isFork
    ensures q.techStack == p.techStack && q.category == p.category
    ensures Consistent(q)
    ensures q.status in {Skipped, Completed, Deployed, Failed}
    ensures q.status == Completed ==> q.deployUrl == ""
    ensures q.status == Failed ==> q.error == "Completion failed" || StartsWith(q.error, "Clone failed: ")
    ensures trace.probed == probed
    ensures c.fileCount <= 1 ==> q.status == Skipped && q.skipReason == "Empty or README-only repo"
    ensures c.fileCount > 1 && cfg.dryRun ==> q.status == Completed && !trace.cloned
    ensures c.tier == 0 ==> trace.completionTurns == []
    ensures c.tier >= 1 && (trace.deployResults != [] || q.error == "Completion failed") ==>
              trace.cloned && trace.completionTurns == [if c.tier == 1 then 15 else 30]
    ensures |trace.deployResults| <= 2 && |trace.fixRequests| <= 1
    ensures FixRequestsGuarded(trace.deployResults, trace.fixRequests)
    ensures trace.deployResults != [] ==> trace.cloned && trace.pushes == |trace.deployResults|
    ensures DeployedAsTraced(q, trace, repo.name)
    ensures trace.deployResults != [] && (forall k :: 0 <= k < |trace.deployResults| ==> trace.deployResults[k].url.None?) ==>
              q.status == Completed
  {
    q, trace := p, NoTrace.(probed := probed);
    if c.fileCount <= 1 {
      q := q.(status := Skipped, skipReason := "Empty or README-only repo");
      return;
    }

    if cfg.dryRun {
      q := q.(status := Completed, completedAt := now);
      return;
    }

    q, trace := CloneCompleteDeploy(cfg, world, now, repo, p, c.tier, probed);
  }

  /**
   * The phases of a repository with something to deploy, outside a dry run:
   * the clone (whose failure is Failed with "Clone failed: " and the
   * message), the completion (the quick fix for tier 0, the agent otherwise,
   * whose failure is Failed with "Completion failed"), the push, and the
   * deployment with its self-healing retry.
   */
  method CloneCompleteDeploy(cfg: Config, world: World, now: string, repo: Repo, p: Project, tier: nat,
                             probed: seq<string>)
    returns (q: Project, trace: Trace)
    requires p.status == Pending && p.deployUrl == "" && p.error == "" && p.skipReason == ""
    requires p.name == repo.name
    ensures q.name == p.name && q.githubUrl == p.githubUrl && q.language == p.language && q.isFork == p.isFork
    ensures q.techStack == p.techStack && q.category == p.category
    ensures Consistent(q)
    ensures q.status in {Completed, Deployed, Failed}
    ensures q.status == Completed ==> q.deployUrl == ""
    ensures q.status == Failed ==> q.error == "Completion failed" || StartsWith(q.error, "Clone failed: ")
    ensures trace.probed == probed && trace.cloned
    ensures tier == 0 ==> trace.completionTurns == []
    ensures tier >= 1 && (trace.deployResults != [] || q.error == "Completion failed") ==>
              trace.completionTurns == [if tier == 1 then 15 else 30]
    ensures |trace.deployResults| <= 2 && |trace.fixRequests| <= 1
    ensures FixRequestsGuarded(trace.deployResults, trace.fixRequests)
    ensures trace.deployResults != [] ==> trace.pushes == |trace.deployResults|
    ensures DeployedAsTraced(q, trace, repo.name)
    ensures trace.deployResults != [] && (forall k :: 0 <= k < |trace.deployResults| ==> trace.deployResults[k].url.None?) ==>
              q.status == Completed
  {
    q, trace := p, NoTrace.(probed := probed, cloned := true);
    var cloneError := world.cloneError(repo.name);
    if cloneError.Some? {
      q := q.(status := Failed, error := "Clone failed: " + cloneError.value);
      assert q.error[1] != "Completion failed"[1];
      return;
    }

    var copy := world.checkout(repo.name);
    if tier == 0 {
      copy := QuickFix(copy, repo.name);
    } else {
      var (ok, turns) := CompleteTiered(tier, world.completionOk(repo.name));
      trace := trace.(completionTurns := turns);
      if !ok {
        q := q.(status := Failed, error := "Completion failed");
        return;
      }
      copy := world.completed(repo.name);
    }

    var results, fixRequests;
    q, results, fixRequests := DeployPhase(cfg, world, now, q, copy);
    trace := trace.(deployResults := results, fixRequests := fixRequests, pushes := |results|);
  }

  /**
   * `find_existing_deployment` for one repository: its candidate URLs probed
   * in order; a live one is never empty.
   */
  function FindDeployment(cfg: Config, world: World, repo: Repo): (r: Found)
    ensures r.isLive ==> r.url != ""
  {
    var candidates := CandidateUrls(cfg.account, repo, world.descriptionUrls(repo.description));
    var live := u => IsLive(world.probe(u));
    CandidateUrlsNonEmpty(cfg.account, repo, world.descriptionUrls(repo.description));
    FoundIsCandidate(candidates, live);
    FindExistingDeployment(candidates, live)
  }

  /**
   * The phases from the liveness probe on, for a repository that is neither
   * cached nor skipped: a live candidate URL makes the record AlreadyLive
   * with that URL and classification copied, and nothing is cloned, asked
   * of the agent or deployed; otherwise the classification goes into the
   * record and the remaining phases run.
   */
  method ProbeAndRun(cfg: Config, world: World, now: string, repo: Repo) returns (p: Project, trace: Trace)
    ensures Consistent(p) && SameIdentity(p, repo)
    ensures p.status in {Skipped, AlreadyLive, Completed, Deployed, Failed}
    ensures p.status == Completed ==> p.deployUrl == ""
    ensures p.status == Failed ==> p.error == "Completion failed" || StartsWith(p.error, "Clone failed: ")
    ensures var found := FindDeployment(cfg, world, repo);
            && trace.probed == found.probed
            && (found.isLive <==> p.status == AlreadyLive)
            && (found.isLive ==> p.deployUrl == found.url && trace == NoTrace.(probed := found.probed))
    ensures p.techStack == Classify(repo.language, world.tree(repo.name)).techStack
    ensures p.category == Classify(repo.language, world.tree(repo.name)).category
    ensures NotLiveOutcome(cfg, p, trace, Classify(repo.language, world.tree(repo.name)),
                           FindDeployment(cfg, world, repo).isLive)
    ensures |trace.deployResults| <= 2 && |trace.fixRequests| <= 1
    ensures FixRequestsGuarded(trace.deployResults, trace.fixRequests)
    ensures trace.deployResults != [] ==> trace.cloned && trace.pushes == |trace.deployResults|
    ensures DeployedAsTraced(p, trace, repo.name)
    ensures trace.deployResults != [] && (forall k :: 0 <= k < |trace.deployResults| ==> trace.deployResults[k].url.None?) ==>
              p.status == Completed
  {
    var found := FindDeployment(cfg, world, repo);
    var blobPaths := world.tree(repo.name);
    if found.isLive {
      p := LiveRecord(repo, found.url, blobPaths, now);
      trace := NoTrace.(probed := found.probed);
      assert p.status != Deployed && trace.deployResults == [];
    } else {
      p := ClassifiedRecord(repo, blobPaths);
      p, trace := CompleteAndDeploy(cfg, world, now, repo, p, Classify(repo.language, blobPaths), found.probed);
    }
  }

  /**
   * `process_repo`, in the order the code runs its phases:
   *  1. with SKIP_EXISTING, a cached Deployed or AlreadyLive record is returned as it is;
   *  2. the skip rules (status Skipped with their reason);
   *  3. the liveness probe (AlreadyLive with the live URL, classification
   *     copied, no clone, no agent);
   *  4. the classification; at most one file is Skipped as empty or README-only;
   *  5. a dry run stops at Completed;
   *  6. a failed clone is Failed with "Clone failed: " and the message;
   *  7. tier 0 gets the quick fix, other tiers the agent, whose failure is
   *     Failed with "Completion failed";
   *  8. the push, then status Completed, then up to two deployment attempts;
   *     only a successful one makes the status Deployed with the service URL.
   */
  method ProcessRepo(cfg: Config, world: World, now: string, repo: Repo, projects: map<string, Project>)
    returns (p: Project, trace: Trace)
    ensures Cached(cfg, repo.name, projects) ==> p == projects[repo.name] && trace == NoTrace
    ensures !Cached(cfg, repo.name, projects) ==>
              && Consistent(p) && SameIdentity(p, repo)
              && p.status in {Skipped, AlreadyLive, Completed, Deployed, Failed}
              && (p.status == Completed ==> p.deployUrl == "")
    ensures !Cached(cfg, repo.name, projects) && ShouldSkip(repo).skip ==>
              p.status == Skipped && p.skipReason == ShouldSkip(repo).reason && trace == NoTrace
    ensures !Cached(cfg, repo.name, projects) && !ShouldSkip(repo).skip ==>
              trace.probed == FindDeployment(cfg, world, repo).probed
              && (p.status == AlreadyLive <==> FindDeployment(cfg, world, repo).isLive)
    ensures !Cached(cfg, repo.name, projects) && !ShouldSkip(repo).skip ==>
              NotLiveOutcome(cfg, p, trace, Classify(repo.language, world.tree(repo.name)),
                             FindDeployment(cfg, world, repo).isLive)
    ensures !Cached(cfg, repo.name, projects) && p.status == Failed ==>
              p.error == "Completion failed" || StartsWith(p.error, "Clone failed: ")
    ensures |trace.deployResults| <= 2 && |trace.fixRequests| <= 1
    ensures FixRequestsGuarded(trace.deployResults, trace.fixRequests)
    ensures p.status == Deployed && !Cached(cfg, repo.name, projects) ==>
              p.deployUrl == LiveUrl(ServiceName(repo.name))
    ensures trace.deployResults != [] && (forall k :: 0 <= k < |trace.deployResults| ==> trace.deployResults[k].url.None?) ==>
              p.status == Completed
  {
    trace := NoTrace;
    if cfg.skipExisting && repo.name in projects {
      var existing := projects[repo.name];
      if existing.status == Deployed || existing.status == AlreadyLive {
        return existing, trace;
      }
    }

    var decision := ShouldSkip(repo);
    if decision.skip {
      p := NewProject(repo).(status := Skipped, skipReason := decision.reason);
      return;
    }

    p, trace := ProbeAndRun(cfg, world, now, repo);
  }
}

=== FILE: records.dfy ===
/**
 * The values the orchestrator passes around: the repository metadata it
 * reads from the source host, the per-repository ledger record (`Project`)
 * with its status, and the run's configuration.
 */
module Records {

  /**
   * The ledger status of a repository. The seven named states are the
   * `ProjectStatus` enum; `Unrecognised` stands for any other text found in
   * a ledger entry (the ledger is a JSON file, so a record may carry a status
   * string the enum does not know, or none at all).
   */
  datatype Status =
    | Pending
    | Analysing
    | Skipped
    | Completed
    | Deployed
    | AlreadyLive
    | Failed
    | Unrecognised(text: string)

  /** The two statuses that are never revisited: a deployment exists and works. */
  predicate Sticky(s: Status)
  {
    s == Deployed || s == AlreadyLive
  }

  /**
   * One repository as listed by the source host. A missing or null
   * `description`, `language` or `homepage` is the empty string; a missing
   * `size` is 0.
   */
  datatype Repo = Repo(
    name: string,
    htmlUrl: string,
    cloneUrl: string,
    description: string,
    language: string,
    fork: bool,
    archived: bool,
    size: int,
    homepage: string)

  /** The ledger record kept for each repository. */
  datatype Project = Project(
    name: string,
    githubUrl: string,
    description: string,
    language: string,
    isFork: bool,
    status: Status,
    deployUrl: string,
    renderServiceId: string,
    techStack: seq<string>,
    category: string,
    skipReason: string,
    error: string,
    completedAt: string,
    gifUrl: string,
    existingDeployUrls: seq<string>)

  /** The record as first built for a repository: its facts copied, every other field at its default. */
  function NewProject(repo: Repo): (p: Project)
    ensures p.name == repo.name && p.githubUrl == repo.htmlUrl && p.description == repo.description
    ensures p.language == repo.language && p.isFork == repo.fork
    ensures p.status == Pending && p.deployUrl == "" && p.skipReason == "" && p.error == ""
  {
    Project(repo.name, repo.htmlUrl, repo.description, repo.language, repo.fork, Pending,
            "", "", [], "", "", "", "", "", [])
  }

  /**
   * The consistency every status demands of the other fields: a working
   * deployment has a URL, a skip has a reason, a failure has an error text.
   */
  predicate Consistent(p: Project)
  {
    && (Sticky(p.status) ==> p.deployUrl != "")
    && (p.status == Skipped ==> p.skipReason != "")
    && (p.status == Failed ==> p.error != "")
  }

  /**
   * The run's configuration, read once from the environment: the account
   * name, the deployment provider's owner id, whether a provider API key is
   * set, and the SKIP_EXISTING and DRY_RUN switches.
   */
  datatype Config = Config(
    account: string,
    ownerId: string,
    apiKeySet: bool,
    skipExisting: bool,
    dryRun: bool)
}

=== FILE: render.dfy ===
/**
 * Deployment to the hosting provider: the request body built from the
 * working copy's service descriptor (`render.yaml`), the client that posts
 * it with a bounded back-off on rate limiting, and the self-healing loop
 * that hands a failed deployment's error to the coding agent and tries
 * again.
 *
 * The provider's answers are an oracle `respond(payload, k)` giving the
 * outcome of the k-th POST of `payload`; the agent's fix attempts are the
 * oracles `fixOk` (did the agent report success) and `fixed` (the working
 * copy it left behind).
 */
module Render {
  import opened Wrappers
  import opened Strings
  import opened Records

  /**
   * The first entry of the descriptor's `services` list. A key that is
   * missing (or null) is `None`.
   */
  datatype ServiceDecl = ServiceDecl(
    kind: Option<string>,
    name: Option<string>,
    runtime: Option<string>,
    buildCommand: Option<string>,
    startCommand: Option<string>,
    staticPublishPath: Option<string>)

  /**
   * The descriptor file as the payload builder sees it: absent, present but
   * empty or without a `services` key, or present with a first service.
   */
  datatype RenderYaml = NoFile | NoServices | FirstService(svc: ServiceDecl)

  /** The parts of a checked-out repository the pipeline reads or writes. */
  datatype WorkingCopy = WorkingCopy(renderYaml: RenderYaml, hasReadme: bool)

  /** The descriptor the tier-0 quick fix writes: one static web service publishing the root. */
  function StaticDecl(projectName: string): ServiceDecl
  {
    ServiceDecl(Some("web"), Some(projectName), Some("static"), None, None, Some("./"))
  }

  /**
   * `quick_fix_static_repo`: writes the static descriptor when there is no
   * descriptor file and a README when there is none; an existing file is
   * never overwritten.
   */
  function QuickFix(wc: WorkingCopy, projectName: string): (r: WorkingCopy)
    ensures r.hasReadme
    ensures wc.renderYaml != NoFile ==> r.renderYaml == wc.renderYaml
    ensures wc.renderYaml == NoFile ==> r.renderYaml == FirstService(StaticDecl(projectName))
  {
    WorkingCopy(if wc.renderYaml == NoFile then FirstService(StaticDecl(projectName)) else wc.renderYaml,
                true)
  }

  /** Running the quick fix a second time changes nothing. */
  lemma QuickFixIdempotent(wc: WorkingCopy, projectName: string)
    ensures QuickFix(QuickFix(wc, projectName), projectName) == QuickFix(wc, projectName)
  {
  }

  /** The provider service name: `mh-` and at most the first 30 characters of the repository name. */
  function ServiceName(projectName: string): (r: string)
    ensures 3 <= |r| <= 33 && r[..3] == "mh-"
    ensures r[3..] <= projectName
    ensures |projectName| <= 30 ==> r[3..] == projectName
    ensures |projectName| >= 30 ==> |r| == 33
  {
    "mh-" + Take(projectName, 30)
  }

  /**
   * Two repository names give the same service name exactly when they agree
   * on their first 30 characters (so longer names sharing that prefix collide).
   */
  lemma ServiceNameCollision(a: string, b: string)
    ensures ServiceName(a) == ServiceName(b) <==> Take(a, 30) == Take(b, 30)
  {
    if ServiceName(a) == ServiceName(b) {
      assert ServiceName(a)[3..] == Take(a, 30);
      assert ServiceName(b)[3..] == Take(b, 30);
    }
  }

  function LiveUrl(service: string): string
  {
    "https://" + service + ".onrender.com"
  }

  /** The two request bodies the provider's service-creation endpoint is sent. */
  datatype Payload =
    | StaticSite(name: string, ownerId: string, repo: string, autoDeploy: string, branch: string,
                 buildCommand: string, publishPath: string)
    | WebService(name: string, ownerId: string, repo: string, autoDeploy: string, branch: string,
                 buildCommand: string, startCommand: string, plan: string, runtime: string)

  /** The descriptor asks for a web service: type "web" and a runtime that is present and not "static". */
  predicate DeclaresWebService(yaml: RenderYaml)
  {
    && yaml.FirstService?
    && yaml.svc.kind == Some("web")
    && yaml.svc.runtime.Some? && yaml.svc.runtime.value != "static"
  }

  /**
   * `build_render_payload`: a web service exactly when the descriptor declares
   * one, taking its runtime and its commands (defaults "npm install" and
   * "npm start"); otherwise a static site whose build command and publish
   * path come from the first service when it gives them (defaults "" and
   * "./"). Every payload carries the service name, the owner, the repository
   * URL, automatic deploys and the main branch.
   */
  function BuildRenderPayload(ownerId: string, project: Project, yaml: RenderYaml): (p: Payload)
    ensures p.name == ServiceName(project.name) && p.ownerId == ownerId && p.repo == project.githubUrl
    ensures p.autoDeploy == "yes" && p.branch == "main"
    ensures p.WebService? <==> DeclaresWebService(yaml)
    ensures p.WebService? ==>
              && p.runtime == yaml.svc.runtime.value && p.plan == "free"
              && p.buildCommand == yaml.svc.buildCommand.GetOr("npm install")
              && p.startCommand == yaml.svc.startCommand.GetOr("npm start")
    ensures p.StaticSite? && !yaml.FirstService? ==> p.buildCommand == "" && p.publishPath == "./"
    ensures p.StaticSite? && yaml.FirstService? ==>
              && p.buildCommand == yaml.svc.buildCommand.GetOr("")
              && p.publishPath == yaml.svc.staticPublishPath.GetOr("./")
  {
    var service := ServiceName(project.name);
    if DeclaresWebService(yaml) then
      WebService(service, ownerId, project.githubUrl, "yes", "main",
                 yaml.svc.buildCommand.GetOr("npm install"), yaml.svc.startCommand.GetOr("npm start"),
                 "free", yaml.svc.runtime.value)
    else if yaml.FirstService? then
      StaticSite(service, ownerId, project.githubUrl, "yes", "main",
                 yaml.svc.buildCommand.GetOr(""), yaml.svc.staticPublishPath.GetOr("./"))
    else
      StaticSite(service, ownerId, project.githubUrl, "yes", "main", "", "./")
  }

  /** A repository fixed up by the quick fix is deployed as a static site of its root, with no build. */
  lemma QuickFixedRepoDeploysStatic(ownerId: string, project: Project, wc: WorkingCopy)
    requires wc.renderYaml == NoFile
    ensures BuildRenderPayload(ownerId, project, QuickFix(wc, project.name).renderYaml)
            == StaticSite(ServiceName(project.name), ownerId, project.githubUrl, "yes", "main", "", "./")
  {
  }

  /** The outcome of one POST: an exception raised by the request, or a response. */
  datatype PostOutcome = PostRaised(message: string) | PostResponse(code: nat, text: string)

  predicate Accepted(o: PostOutcome)
  {
    o.PostResponse? && (o.code == 200 || o.code == 201)
  }

  predicate RateLimited(o: PostOutcome)
  {
    o.PostResponse? && o.code == 429
  }

  /** What `deploy_to_render` returns: the URL on success, otherwise the error text. */
  datatype DeployResult = DeployResult(url: Option<string>, error: string)

  const MaxApiAttempts: nat := 3

  /** The result of POSTs number `k` onward, when every earlier one was rate limited. */
  function AttemptsFrom(sent: Payload, respond: (Payload, nat) -> PostOutcome, k: nat): DeployResult
    decreases MaxApiAttempts - k
  {
    if k >= MaxApiAttempts then DeployResult(None, "Rate limit exceeded after retries")
    else match respond(sent, k)
      case PostRaised(message) => DeployResult(None, message)
      case PostResponse(code, text) =>
        if code == 200 || code == 201 then DeployResult(Some(LiveUrl(sent.name)), "")
        else if code == 429 then AttemptsFrom(sent, respond, k + 1)
        else DeployResult(None, "Render API " + NatToString(code) + ": " + Take(text, 500))
  }

  /** The result `deploy_to_render` reports for a configuration, a descriptor and the provider's answers. */
  function DeployOutcome(cfg: Config, project: Project, yaml: RenderYaml,
                         respond: (Payload, nat) -> PostOutcome): DeployResult
  {
    if !cfg.apiKeySet then DeployResult(None, "No RENDER_API_KEY set")
    else if cfg.dryRun then DeployResult(Some(LiveUrl(ServiceName(project.name))), "")
    else AttemptsFrom(BuildRenderPayload(cfg.ownerId, project, yaml), respond, 0)
  }

  /** A deployment succeeds only at the service's own URL, and then with no error. */
  lemma {:induction false} DeployOutcomeUrl(cfg: Config, project: Project, yaml: RenderYaml,
                                            respond: (Payload, nat) -> PostOutcome)
    ensures var r := DeployOutcome(cfg, project, yaml, respond);
            r.url.Some? ==> r.url.value == LiveUrl(ServiceName(project.name)) && r.error == ""
  {
    if cfg.apiKeySet && !cfg.dryRun {
      var sent := BuildRenderPayload(cfg.ownerId, project, yaml);
      AttemptsFromUrl(sent, respond, 0);
    }
  }

  lemma {:induction false} AttemptsFromUrl(sent: Payload, respond: (Payload, nat) -> PostOutcome, k: nat)
    ensures var r := AttemptsFrom(sent, respond, k);
            r.url.Some? ==> r.url.value == LiveUrl(sent.name) && r.error == ""
    decreases MaxApiAttempts - k
  {
    if k < MaxApiAttempts && RateLimited(respond(sent, k)) {
      AttemptsFromUrl(sent, respond, k + 1);
    }
  }

  /**
   * `deploy_to_render`. Without an API key nothing is posted; in a dry run
   * nothing is posted and the service URL is reported. Otherwise the payload
   * is posted at most three times: a rate-limited answer waits 30, 60 or 90
   * seconds and posts again, and the first other answer decides the result.
   * Three rate-limited answers in a row give "Rate limit exceeded after retries".
   */
  method DeployToRender(cfg: Config, project: Project, yaml: RenderYaml,
                        respond: (Payload, nat) -> PostOutcome)
    returns (result: DeployResult, posts: nat, waits: seq<nat>)
    ensures result == DeployOutcome(cfg, project, yaml, respond)
    ensures !cfg.apiKeySet ==> result == DeployResult(None, "No RENDER_API_KEY set") && posts == 0
    ensures cfg.apiKeySet && cfg.dryRun ==>
              result == DeployResult(Some(LiveUrl(ServiceName(project.name))), "") && posts == 0
    ensures !cfg.apiKeySet || cfg.dryRun ==> waits == []
    ensures cfg.apiKeySet && !cfg.dryRun ==>
              var sent := BuildRenderPayload(cfg.ownerId, project, yaml);
              && 1 <= posts <= MaxApiAttempts
              && var last := respond(sent, posts - 1);
              && (forall k :: 0 <= k < posts - 1 ==> RateLimited(respond(sent, k)))
              && |waits| == (if RateLimited(last) then posts else posts - 1)
              && (forall k :: 0 <= k < |waits| ==> waits[k] == 30 * (k + 1))
              && (Accepted(last) ==> result == DeployResult(Some(LiveUrl(sent.name)), ""))
              && (RateLimited(last) ==>
                    posts == MaxApiAttempts && result == DeployResult(None, "Rate limit exceeded after retries"))
              && (last.PostRaised? ==> result == DeployResult(None, last.message))
              && (last.PostResponse? && !Accepted(last) && !RateLimited(last) ==>
                    result == DeployResult(None, "Render API " + NatToString(last.code) + ": " + Take(last.text, 500)))
  {
    posts, waits := 0, [];
    if !cfg.apiKeySet {
      return DeployResult(None, "No RENDER_API_KEY set"), posts, waits;
    }
    var payload := BuildRenderPayload(cfg.ownerId, project, yaml);
    var service := payload.name;
    if cfg.dryRun {
      return DeployResult(Some(LiveUrl(service)), ""), posts, waits;
    }
    var attempt := 0;
    while attempt < MaxApiAttempts
      invariant attempt <= MaxApiAttempts && posts == attempt && |waits| == attempt
      invariant forall k :: 0 <= k < attempt ==> RateLimited(respond(payload, k)) && waits[k] == 30 * (k + 1)
      invariant AttemptsFrom(payload, respond, 0) == AttemptsFrom(payload, respond, attempt)
    {
      var answer := respond(payload, attempt);
      posts := posts + 1;
      match answer {
        case PostRaised(message) =>
          return DeployResult(None, message), posts, waits;
        case PostResponse(code, text) =>
          if code == 200 || code == 201 {
            return DeployResult(Some(LiveUrl(service)), ""), posts, waits;
          } else if code == 429 {
            waits := waits + [30 * (attempt + 1)];
            attempt := attempt + 1;
          } else {
            return DeployResult(None, "Render API " + NatToString(code) + ": " + Take(text, 500)), posts, waits;
          }
      }
    }
    result := DeployResult(None, "Rate limit exceeded after retries");
  }

  /** The rate-limit guard of the self-healing loop. */
  predicate MentionsRateLimit(error: string)
  {
    Contains(Lower(error), "rate limit") || Contains(error, "Rate limit")
  }

  /** The guard's second test is redundant: "Rate limit" lower-cases to "rate limit". */
  lemma RateLimitGuardReduces(error: string)
    ensures MentionsRateLimit(error) <==> Contains(Lower(error), "rate limit")
  {
    if Contains(error, "Rate limit") {
      var i :| 0 <= i <= |error| - 10 && OccursAt(error, "Rate limit", i);
      LowerSlice(error, i, i + 10);
      assert Lower("Rate limit") == "rate limit";
      assert OccursAt(Lower(error), "rate limit", i);
    }
  }

  /** The client's own message after three rate-limited answers trips the guard. */
  lemma RetriesExhaustedIsRateLimit()
    ensures MentionsRateLimit("Rate limit exceeded after retries")
  {
    assert OccursAt("Rate limit exceeded after retries", "Rate limit", 0);
  }

  /** The working copy the deployment attempt number `attempt` (from 1) sees. */
  function CopyAt(wc: WorkingCopy, fixed: nat -> WorkingCopy, attempt: nat): WorkingCopy
  {
    if attempt <= 1 then wc else fixed(attempt - 1)
  }

  /** One call to `deploy_to_render` from the retry loop, which keeps only the result. */
  method DeployAttempt(cfg: Config, project: Project, yaml: RenderYaml, respond: (Payload, nat) -> PostOutcome)
    returns (result: DeployResult)
    ensures result == DeployOutcome(cfg, project, yaml, respond)
    ensures result.url.Some? ==> result.url.value == LiveUrl(ServiceName(project.name)) && result.error == ""
  {
    var posts, waits;
    result, posts, waits := DeployToRender(cfg, project, yaml, respond);
    DeployOutcomeUrl(cfg, project, yaml, respond);
  }

  /** The outcomes of the first `n` deployment attempts, attempt `a` seeing the copy left by the fix after attempt `a - 1`. */
  function Outcomes(cfg: Config, project: Project, wc: WorkingCopy, fixed: nat -> WorkingCopy,
                    respond: nat -> (Payload, nat) -> PostOutcome, n: nat): (r: seq<DeployResult>)
    ensures |r| == n
  {
    if n == 0 then []
    else Outcomes(cfg, project, wc, fixed, respond, n - 1)
         + [DeployOutcome(cfg, project, CopyAt(wc, fixed, n).renderYaml, respond(n))]
  }

  lemma OutcomesNext(cfg: Config, project: Project, wc: WorkingCopy, fixed: nat -> WorkingCopy,
                     respond: nat -> (Payload, nat) -> PostOutcome, n: nat, r: DeployResult)
    requires r == DeployOutcome(cfg, project, CopyAt(wc, fixed, n + 1).renderYaml, respond(n + 1))
    ensures Outcomes(cfg, project, wc, fixed, respond, n + 1) == Outcomes(cfg, project, wc, fixed, respond, n) + [r]
  {
  }

  lemma {:induction false} OutcomesAt(cfg: Config, project: Project, wc: WorkingCopy, fixed: nat -> WorkingCopy,
                                      respond: nat -> (Payload, nat) -> PostOutcome, n: nat)
    ensures forall k :: 0 <= k < n ==>
              Outcomes(cfg, project, wc, fixed, respond, n)[k]
                == DeployOutcome(cfg, project, CopyAt(wc, fixed, k + 1).renderYaml, respond(k + 1))
  {
    if n > 0 {
      OutcomesAt(cfg, project, wc, fixed, respond, n - 1);
      var prev := Outcomes(cfg, project, wc, fixed, respond, n - 1);
      var all := Outcomes(cfg, project, wc, fixed, respond, n);
      forall k | 0 <= k < n - 1
        ensures all[k] == prev[k]
      {
      }
    }
  }

  /**
   * `deploy_with_retry`. Deployment attempt `a` (from 1 to `maxRetries`) uses
   * the provider's answers `respond(a)` and the working copy left by the fix
   * after attempt `a - 1`. The loop returns at the first success. After a
   * failure it asks the agent for a fix only when the error is non-empty,
   * does not mention a rate limit, and the attempt was not the last; it stops
   * when the agent reports failure. `fixRequests` lists the errors handed to
   * the agent; every successful fix is pushed before the next attempt.
   */
  method DeployWithRetry(cfg: Config, project: Project, wc: WorkingCopy, maxRetries: int,
                         respond: nat -> (Payload, nat) -> PostOutcome,
                         fixOk: nat -> bool, fixed: nat -> WorkingCopy)
    returns (url: Option<string>, results: seq<DeployResult>, fixRequests: seq<string>)
    ensures maxRetries <= 0 ==> results == [] && fixRequests == [] && url == None
    ensures maxRetries >= 1 ==> 1 <= |results| <= maxRetries && |fixRequests| < maxRetries
    ensures results == Outcomes(cfg, project, wc, fixed, respond, |results|)
    ensures url.Some? ==> |results| >= 1 && results[|results| - 1].url == url
    ensures url.Some? ==> url.value == LiveUrl(ServiceName(project.name))
    ensures forall k :: 0 <= k < |results| - (if url.Some? then 1 else 0) ==> results[k].url.None?
    ensures |results| - 1 <= |fixRequests| <= |results|
    ensures forall k :: 0 <= k < |fixRequests| ==>
              && fixRequests[k] == results[k].error
              && fixRequests[k] != ""
              && !MentionsRateLimit(fixRequests[k])
    ensures forall k :: 1 <= k < |results| ==> fixOk(k)
    ensures |fixRequests| == |results| >= 1 ==> !fixOk(|results|)
    ensures url.None? && 1 <= |results| < maxRetries && |fixRequests| < |results| ==>
              results[|results| - 1].error == "" || MentionsRateLimit(results[|results| - 1].error)
  {
    url, results, fixRequests := None, [], [];
    var attempt := 1;
    var copy := wc;
    while attempt <= maxRetries
      invariant 1 <= attempt <= (if maxRetries >= 1 then maxRetries else 1)
      invariant |results| == attempt - 1 == |fixRequests|
      invariant copy == CopyAt(wc, fixed, attempt)
      invariant results == Outcomes(cfg, project, wc, fixed, respond, |results|)
      invariant forall k :: 0 <= k < |results| ==> results[k].url.None?
      invariant forall k :: 0 <= k < |fixRequests| ==>
                  fixRequests[k] == results[k].error && fixRequests[k] != "" && !MentionsRateLimit(fixRequests[k])
      invariant forall k :: 1 <= k < attempt ==> fixOk(k)
      decreases maxRetries - attempt
    {
      var result := DeployAttempt(cfg, project, copy.renderYaml, respond(attempt));
      OutcomesNext(cfg, project, wc, fixed, respond, |results|, result);
      results := results + [result];
      if result.url.Some? {
        url := result.url;
        return;
      }
      if result.error == "" || attempt >= maxRetries {
        return;
      }
      if MentionsRateLimit(result.error) {
        return;
      }
      fixRequests := fixRequests + [result.error];
      if fixOk(attempt) {
        copy := fixed(attempt);
        attempt := attempt + 1;
      } else {
        return;
      }
    }
  }
}

=== FILE: strings.dfy ===
/**
 * The string operations the orchestrator borrows from Python's `str`:
 * `lower`, `capitalize`, `strip`, `startswith`, `endswith`, `in`, slicing
 * with `[:n]` and the decimal rendering of an integer.
 * Case mapping is modelled on ASCII letters only.
 */
module Strings {

  predicate IsUpperAscii(c: char) { 'A' <= c <= 'Z' }

  predicate IsLowerAscii(c: char) { 'a' <= c <= 'z' }

  function LowerChar(c: char): (r: char)
    ensures !IsUpperAscii(r)
    ensures IsLowerAscii(r) <==> IsUpperAscii(c) || IsLowerAscii(c)
    ensures !IsUpperAscii(c) ==> r == c
  {
    if IsUpperAscii(c) then (c as int + 32) as char else c
  }

  function UpperChar(c: char): (r: char)
    ensures !IsLowerAscii(r)
    ensures !IsLowerAscii(c) ==> r == c
  {
    if IsLowerAscii(c) then (c as int - 32) as char else c
  }

  /** Python's `s.lower()` on ASCII letters. */
  function Lower(s: string): (r: string)
    ensures |r| == |s|
    ensures forall i :: 0 <= i < |s| ==> r[i] == LowerChar(s[i])
  {
    seq(|s|, i requires 0 <= i < |s| => LowerChar(s[i]))
  }

  predicate IsLowerString(s: string)
  {
    forall i :: 0 <= i < |s| ==> !IsUpperAscii(s[i])
  }

  /** Python's `s.capitalize()`: first character upper case, the rest lower case. */
  function Capitalize(s: string): (r: string)
    ensures |r| == |s|
    ensures |s| > 0 ==> r[0] == UpperChar(s[0])
  {
    if s == [] then [] else [UpperChar(s[0])] + Lower(s[1..])
  }

  /** The characters for which Python's `str.isspace()` holds, i.e. what `str.strip()` removes. */
  predicate IsWhitespace(c: char)
  {
    var n := c as int;
    (0x09 <= n <= 0x0D) || (0x1C <= n <= 0x20) || n == 0x85 || n == 0xA0 || n == 0x1680
    || (0x2000 <= n <= 0x200A) || n == 0x2028 || n == 0x2029 || n == 0x202F || n == 0x205F
    || n == 0x3000
  }

  function TrimStart(s: string): (r: string)
    ensures |r| <= |s|
    ensures r == s[|s| - |r|..]
    ensures r != [] ==> !IsWhitespace(r[0])
  {
    if s != [] && IsWhitespace(s[0]) then TrimStart(s[1..]) else s
  }

  function TrimEnd(s: string): (r: string)
    ensures |r| <= |s|
    ensures r == s[..|r|]
    ensures r != [] ==> !IsWhitespace(r[|r| - 1])
  {
    if s != [] && IsWhitespace(s[|s| - 1]) then TrimEnd(s[..|s| - 1]) else s
  }

  /** Python's `s.strip()`. */
  function Strip(s: string): (r: string)
    ensures |r| <= |s|
    ensures r != [] ==> !IsWhitespace(r[0]) && !IsWhitespace(r[|r| - 1])
  {
    var t := TrimStart(s);
    var r := TrimEnd(t);
    assert r != [] ==> r[0] == t[0];
    r
  }

  predicate StartsWith(s: string, prefix: string)
  {
    |prefix| <= |s| && s[..|prefix|] == prefix
  }

  predicate EndsWith(s: string, suffix: string)
  {
    |suffix| <= |s| && s[|s| - |suffix|..] == suffix
  }

  predicate OccursAt(s: string, needle: string, i: int)
  {
    0 <= i && i + |needle| <= |s| && s[i..i + |needle|] == needle
  }

  /** Python's `needle in s` on two strings. */
  predicate Contains(s: string, needle: string)
  {
    exists i | 0 <= i <= |s| - |needle| :: OccursAt(s, needle, i)
  }

  /** Python's `s[:n]`. */
  function Take(s: string, n: nat): (r: string)
    ensures |r| == if |s| <= n then |s| else n
    ensures r == s[..|r|]
  {
    if |s| <= n then s else s[..n]
  }

  function DigitChar(d: nat): (c: char)
    requires d < 10
  {
    "0123456789"[d]
  }

  /** Python's `str(n)` on a natural number. */
  function NatToString(n: nat): (r: string)
    ensures |r| >= 1
    ensures forall i :: 0 <= i < |r| ==> '0' <= r[i] <= '9'
  {
    if n < 10 then [DigitChar(n)] else NatToString(n / 10) + [DigitChar(n % 10)]
  }

  /** A needle that ends another needle is found wherever the longer one is. */
  lemma {:induction false} ContainsSuffixOfNeedle(s: string, front: string, back: string)
    requires Contains(s, front + back)
    ensures Contains(s, back)
  {
    var i :| 0 <= i <= |s| - |front + back| && OccursAt(s, front + back, i);
    assert s[i + |front|..i + |front| + |back|] == (front + back)[|front|..];
    assert OccursAt(s, back, i + |front|);
  }

  /** A needle that starts another needle is found wherever the longer one is. */
  lemma {:induction false} ContainsPrefixOfNeedle(s: string, front: string, back: string)
    requires Contains(s, front + back)
    ensures Contains(s, front)
  {
    var i :| 0 <= i <= |s| - |front + back| && OccursAt(s, front + back, i);
    assert s[i..i + |front|] == (front + back)[..|front|];
    assert OccursAt(s, front, i);
  }

  /** Lower-casing commutes with taking a slice. */
  lemma LowerSlice(s: string, i: nat, j: nat)
    requires i <= j <= |s|
    ensures Lower(s)[i..j] == Lower(s[i..j])
  {
  }

  /** The result of `lower()` contains no upper-case letter. */
  lemma LowerIsLower(s: string)
    ensures IsLowerString(Lower(s))
  {
  }
}

=== FILE: wrappers.dfy ===
/** The optional value used wherever the orchestrator returns `None` or a value. */
module Wrappers {

  datatype Option<+T> = None | Some(value: T)
  {
    /** The wrapped value, or `default` when there is none (Python's `d.get(key, default)`). */
    function GetOr(default: T): T
    {
      if Some? then value else default
    }
  }
}
